=== FILE: README.md ===
# Aifredo web app: a Dafny model of its core

Aifredo lets a user build a personal AI bot, try it in a test chat, pay to
activate it, share a public chat page, and earn $FREDO tokens by finishing
onboarding tasks. This project models the parts of the app that make
decisions, as pure functions over immutable values, and proves properties
about them:

- **public chat** (`ChatStream`): reassembles streamed replies from gateway
  frames, and gates sending on the daily free-message quota;
- **daily quota** (`MessageLimit`) and its **banners** (`UpgradePrompt`);
- **token claims** (`Claims`): the five onboarding tasks, their proofs,
  and the 10 000-spot reservation;
- **payments** (`Payments`): checkout amounts, the three ways a paid session
  credits a balance (each at most once), account activation and the
  migration of draft bots;
- **accounts** (`Auth`): signup, login, and single-use magic links that
  expire after fifteen minutes;
- **bot list** (`BotList`): the browser's list and selected bot;
- **onboarding wizard** (`Onboarding`), its **skills step**
  (`Integrations`) and its scripted **test chat** (`TestChat`);
- **dashboard decisions** (`Dashboard`): the checklist, suggestions,
  claim banner and status badges.

`Db` holds the server's SQLite tables as values.
- Tables with a random key are sequences in insertion order, and a lookup
  returns the first matching row.
- `claims` and `claim_tasks` are maps keyed by their UNIQUE columns.

`Text` models the JavaScript string operations the code uses: `trim`,
`includes`, ASCII `toLowerCase`, `join` and number rendering. `Wrappers`
gives `Option`.

Each server route is a function `(tables, request) -> (tables, response)`.
The clock, random ids and choices, and results from the payment processor,
the password hasher and the email service are passed in as parameters.

## Model

| member | source | states |
|---|---|---|
| Text.Trim | src/routes/PublicChat.tsx:137 | the trimmed string is no longer than the input, has no white space at either end, and is empty exactly when the input is all white space |
| Text.TrimStrips | src/routes/PublicChat.tsx:137 | the trimmed string is the input with a run of leading and a run of trailing white space removed |
| Text.TrimIdempotent | src/routes/PublicChat.tsx:137-139 | trimming an already trimmed message changes nothing |
| Text.ContainsInContext | server/routes/claims.ts:125-129 | a substring found by `includes` is still found after text is added on either side |
| Text.ParseNatToString | src/components/chat/UpgradePrompt.tsx:17 | the decimal rendering of a count parses back to the count |
| Text.NatToStringInjective | src/components/chat/UpgradePrompt.tsx:17 | different counts render as different digit strings |
| ChatStream.ExtractPartsAppend | src/routes/PublicChat.tsx:13-21 | extracting text from an array distributes over array concatenation |
| ChatStream.ExtractPartsSnoc | src/routes/PublicChat.tsx:14-20 | appending one part appends exactly that part's contribution |
| ChatStream.ExtractShapesAgree | src/routes/PublicChat.tsx:11-23 | a one-element array holding a string, or an object with that text, extracts the same as the bare string; arrays of other values extract to "" |
| ChatStream.OtherPartsExtractEmpty | src/routes/PublicChat.tsx:18-20 | parts that are neither strings nor text objects contribute nothing |
| ChatStream.ExtractMixedExample | src/routes/PublicChat.tsx:11-23 | a string part, a text object and a number extract to "Hello world" |
| ChatStream.Welcomed | src/routes/PublicChat.tsx:126 | a loaded bot's chat starts with exactly one finished bot message |
| ChatStream.ErrorText | src/routes/PublicChat.tsx:108 | an error message is never empty and is the server's text when one is given |
| ChatStream.OnChatEvent | src/routes/PublicChat.tsx:89-111 | a delta with content grows the buffer and either rewrites the streaming last message or appends one streaming bot message; an empty delta changes nothing; a final event sets the last streaming message to the final content (or the buffer) and stops it; a final event leaves a non-streaming list alone and clears the buffer; an error appends one bot message and clears the buffer; earlier messages never change |
| ChatStream.Step | src/routes/PublicChat.tsx:79-114 | unparseable or non-chat frames change nothing; a response frame only marks the socket connected when `ok` is true |
| ChatStream.StepShape | src/routes/PublicChat.tsx:93-108 | every frame either keeps the list, replaces only its last message, or appends one message |
| ChatStream.RunKeepsHistory | src/routes/PublicChat.tsx:79-114 | over any frame sequence, every message except the last one existing at the start stays unchanged |
| ChatStream.DeltasConcatenate | src/routes/PublicChat.tsx:91-97 | a run of non-empty deltas leaves one streaming message holding their concatenation, and the buffer equals it |
| ChatStream.FinalOverridesBuffer | src/routes/PublicChat.tsx:98-106 | a final event with content replaces the streamed text; without content the buffer is kept; either way streaming stops and the buffer empties |
| ChatStream.ErrorLeavesPartialStreaming | src/routes/PublicChat.tsx:94-111 | after an error the partial message stays in place with its streaming flag still set, and the next delta starts a second streaming message after the error line |
| ChatStream.NextId | src/routes/PublicChat.tsx:59 | each request id takes a strictly larger counter |
| ChatStream.IssuedIdsDistinct | src/routes/PublicChat.tsx:57-59 | ids issued in sequence are pairwise distinct, whatever the clock reads |
| ChatStream.ConnectRequest | src/routes/PublicChat.tsx:66-77 | the connect request asks for protocol 3 and carries the browser language, or "en-US" when there is none |
| ChatStream.SendMessage | src/routes/PublicChat.tsx:136-155 | a blank text, a missing bot, a pending reply or an exhausted quota does nothing; otherwise the quota goes up by one, one trimmed user message is appended, typing starts, the buffer clears, and a chat.send request with the trimmed text is sent when the socket is open |
| ChatStream.SingleFlight | src/routes/PublicChat.tsx:137-141 | a second send while the first is pending changes nothing |
| ChatStream.TerminalEventReopensGate | src/routes/PublicChat.tsx:106-110 | a final or error event always ends typing |
| MessageLimit.Remaining | src/hooks/useMessageLimit.ts:34 | remaining is never negative, and is either 0 or 20 minus the count |
| MessageLimit.IsLimitedIff | src/hooks/useMessageLimit.ts:34-35 | the quota is exhausted exactly when the count reaches 20 |
| MessageLimit.Load | src/hooks/useMessageLimit.ts:15-25 | loading gives today's stored record, and a zero count for today when storage is empty, unreadable or from another day |
| MessageLimit.Increment | src/hooks/useMessageLimit.ts:37-42 | the count goes up by one on the same day and restarts at 1 on a new day, always dated today |
| MessageLimit.IncrementAndSave | src/hooks/useMessageLimit.ts:37-46 | what is persisted loads back as exactly the new record |
| MessageLimit.LoadSaveRoundTrip | src/hooks/useMessageLimit.ts:15-29 | saving a record and loading it on its own day gives it back |
| MessageLimit.IncrementResetsStaleDay | src/hooks/useMessageLimit.ts:41-42 | a stale record becomes (today, 1), never count + 1 |
| MessageLimit.IncrementUncapped | src/hooks/useMessageLimit.ts:34-46 | incrementing past the limit still raises the count while remaining stays 0 |
| MessageLimit.IncrementTimesCount | src/hooks/useMessageLimit.ts:37-46 | n increments add n to today's base count |
| MessageLimit.RemainingAfterSends | src/hooks/useMessageLimit.ts:3-46 | after n sends on a fresh day, remaining is 20 - n, or 0 from the twentieth send on |
| UpgradePrompt.CounterVisibility | src/components/chat/UpgradePrompt.tsx:10-20 | the counter hides exactly when more than 5 remain, and is urgent exactly at 2 or fewer |
| UpgradePrompt.CounterText | src/components/chat/UpgradePrompt.tsx:15-17 | for 1 to 5 remaining the text is "n free message(s) left today", plural unless n is 1, and differs from the used-up text |
| UpgradePrompt.CounterTextDistinguishes | src/components/chat/UpgradePrompt.tsx:15-17 | different remaining counts from 0 to 5 show different texts |
| UpgradePrompt.BannersFollowQuota | src/components/chat/UpgradePrompt.tsx:10-23 | the upgrade prompt shows exactly when the quota is exhausted; the counter appears from 15 messages on and turns urgent from 18 |
| Db.UserById | server/routes/payments.ts:38 | the lookup finds a row with that id, and finds none only when no row has it |
| Db.UserByEmail | server/routes/auth.ts:40 | the lookup finds a row with that email, and finds none only when no row has it |
| Db.BotCount | server/routes/claims.ts:110-115 | the count is zero exactly when the user owns no bot |
| Db.CreditMovesBalance | server/routes/payments.ts:337 | the balance update moves the looked-up user's balance by exactly the amount |
| Db.UserByIdAppend | server/routes/payments.ts:180-187 | a row appended under an unused id is what the id lookup then finds |
| Claims.TaskIdsMatchTasks | server/routes/claims.ts:19 | the id list is the task list's ids in order |
| Claims.RewardsSumToClaimAmount | server/routes/claims.ts:8-17 | the five rewards 10, 40, 10, 10, 30 sum to the claim amount of 100 |
| Claims.TaskIdsDistinct | server/routes/claims.ts:11-17 | no two tasks share an id |
| Claims.SpotsLeft | server/routes/claims.ts:55 | spots left are never negative, and are 10000 minus the total while under the cap |
| Claims.UserTasks | server/routes/claims.ts:32-43 | all five tasks in order, each completed exactly when a row exists for it |
| Claims.CountCompleted | server/routes/claims.ts:76-77 | the completed count plus the number of missing tasks is the number of tasks, so it reaches the number of tasks exactly when all are completed |
| Claims.CountCompletedAppend | server/routes/claims.ts:76 | the count over two lists is the sum of their counts, and one task counts 1 exactly when it is completed: the count is the number of completed entries |
| Claims.MissingIds | server/routes/claims.ts:163-170 | the missing ids are exactly the incomplete tasks, no more of them than there are tasks |
| Claims.MissingIdsAppend | server/routes/claims.ts:163-170 | the missing ids of two lists are those of the first followed by those of the second, and one task contributes its id exactly when incomplete: the ids keep task order |
| Claims.MissingIdsDistinct | server/routes/claims.ts:163-170 | tasks with distinct ids give a missing list without repeats |
| Claims.ReserveListsEachMissingTaskOnce | server/routes/claims.ts:163-170 | the reserve refusal names each missing task once |
| Claims.Stats | server/routes/claims.ts:46-59 | the report carries the number of reserved or distributed claims, the cap of 10000, the claim amount, and max(0, 10000 minus that number) as the remaining spots |
| Claims.Status | server/routes/claims.ts:62-93 | eligible exactly when all tasks are done, there is no claim and spots remain; claimed exactly when a claim exists, sending the caller's own claim record; reports the claim total, the spots left, the caller's five task rows and their completed count |
| Claims.CompleteTask | server/routes/claims.ts:96-153 | checks in order: caller, known task, bot owned, wallet length 32 to 44, tweet link, not yet done; any refusal leaves the store unchanged; a request passing every check is accepted, inserting exactly one row with that task's reward and answering with the user's task list, its completed count, and all done exactly when all five rows exist |
| Claims.RewardOfMatchesTasks | server/routes/claims.ts:137-139 | the stored reward is the task's reward |
| Claims.Reserve | server/routes/claims.ts:156-204 | checks in order: all tasks done (else the missing ids), wallet proof present, no existing claim, cap not reached; success inserts one reserved claim for 100 at the wallet proof |
| Claims.CompleteTaskPreserves | server/routes/claims.ts:96-153 | completing tasks keeps wallet proofs valid, every claim backed, and the total under the cap |
| Claims.TotalClaimedInsert | server/routes/claims.ts:185-195 | inserting a reserved claim for a new user raises the total by one |
| Claims.ReservePreserves | server/routes/claims.ts:156-204 | reserving keeps every store invariant, so the 10000 cap is never exceeded |
| Claims.EligibleCanReserve | server/routes/claims.ts:81 | whenever the status says eligible, reserving succeeds |
| Claims.WalletNotFoundUnreachable | server/routes/claims.ts:173-176 | in a store reached through the task route, the missing-wallet refusal never happens |
| Claims.CompleteTaskTwice | server/routes/claims.ts:131-135 | completing the same task again is refused with the store unchanged |
| Payments.Balance | server/routes/payments.ts:33-40 | a missing user reads as balance 0 and a signed-out caller is refused |
| Payments.CreateCheckout | server/routes/payments.ts:249-303 | 401 without a caller, 503 unconfigured, 400 for an amount other than 500, 1000 or 2500, 404 without a user row; otherwise a session is created with the caller's id in the metadata, reusing the stored customer id, or storing the new one on the caller's row when there is none; refusals write nothing and no outcome touches bots, transactions or claims |
| Payments.ActivateCheckout | server/routes/payments.ts:55-118 | a session is created exactly for an allowed amount when payments are configured, carrying the caller's id when signed in |
| Payments.CheckoutRoutesAgree | server/routes/payments.ts:249-268 | for a signed-in user with an account, both checkout routes accept exactly the same amounts, refuse the others with the same answer, and pass on a stored customer id alike |
| Payments.SetCustomer | server/routes/payments.ts:278 | only rows with that id get the customer id |
| Payments.SetCustomerFinds | server/routes/payments.ts:278 | after the update the id lookup finds the same row, now with the customer id |
| Payments.CreditSession | server/routes/payments.ts:197-202 | crediting appends exactly one topup transaction tagged with the session and touches no bots or claims |
| Payments.CreditSessionRecords | server/routes/payments.ts:200-202 | after crediting, the session is found by the idempotency check |
| Payments.CreditSessionBalance | server/routes/payments.ts:337-340 | crediting raises the user's balance by exactly the amount and leaves other users alone |
| Payments.Verify | server/routes/payments.ts:307-348 | in order: signed out (401), unconfigured (503), no session id (400), a failed session lookup (500), wrong owner (403), unpaid (400) and a non-positive amount (400) are refused, and no refusal writes; a recorded session changes nothing and reports the caller's balance as already credited; an owned, paid, positive, unrecorded session is credited once to the caller, answering the new balance, and when the caller has no user row the transaction's foreign key fails and the answer is 500 with nothing written |
| Payments.VerifyIdempotent | server/routes/payments.ts:330-335 | verifying a credited session again answers already credited and changes nothing |
| Payments.Webhook | server/routes/payments.ts:352-387 | with payments configured and a valid signature, a credit happens exactly for a completed checkout with a user id that has an account, a positive amount and no recorded transaction; for an id without an account the insert fails and no answer is sent, with nothing written |
| Payments.VerifyThenWebhookCreditsOnce | server/routes/payments.ts:374-376 | the webhook for a session already credited by verification credits nothing |
| Payments.DraftRows | server/routes/payments.ts:207-222 | each inserted row is an online bot of the user with a non-empty trimmed name |
| Payments.DraftRow | server/routes/payments.ts:208-221 | a migratable draft becomes an online bot of the user under the given id, named by its trimmed name, with its channel |
| Payments.DraftRowDefaults | server/routes/payments.ts:217-220 | an empty persona, model or prompt becomes "friendly", "anthropic" or the default prompt; a non-empty one is kept |
| Payments.DraftRowsAllCount | server/routes/payments.ts:207-208 | every draft yields a row exactly when every draft has a non-blank name |
| Payments.DraftRowsNoneCount | server/routes/payments.ts:207-208 | no row is inserted exactly when every draft's name is blank |
| Payments.DraftRowsSingle | server/routes/payments.ts:207-208 | one draft yields its row exactly when its trimmed name is non-empty |
| Payments.DraftRowsAppend | server/routes/payments.ts:207-222 | the rows of two draft lists are the rows of the first followed by those of the second, so rows follow draft order |
| Payments.DraftRowsContains | server/routes/payments.ts:207-222 | every migratable draft's row is inserted |
| Payments.DraftRowsOnly | server/routes/payments.ts:207-222 | every inserted row is the row of some migratable draft |
| Payments.DeleteDefaultBots | server/routes/payments.ts:225-227 | exactly the user's bots whose name ends in "'s bot" (any ASCII case) are removed |
| Payments.MigrateKeepsDrafts | server/routes/payments.ts:204-227 | the migration keeps every migratable draft whose trimmed name does not end in "'s bot", and every bot that is not a default-named bot of this user |
| Payments.LocalPart | server/routes/payments.ts:156 | the name fallback is the text before the first "@", empty exactly when the email is empty or starts with "@" |
| Payments.CustomerName | server/routes/payments.ts:156 | the account name is the details name when there is one, else the email's text before the first "@" when that is non-empty, else "Bot Owner"; it is never empty |
| Payments.ResolveUser | server/routes/payments.ts:162-194 | the account is the metadata id's user if present, else the email's user, else a new account with balance 0 |
| Payments.TxnBySession | server/routes/payments.ts:148 | the found transaction carries the session id |
| Payments.ActivateVerify | server/routes/payments.ts:122-245 | in order: unconfigured (503), no session id (400), a failed session lookup (500), unpaid (400), a non-positive amount (400), then no email (400) are refused, and refusals change nothing; a recorded session changes nothing and reports the id and balance of the account its transaction names; a paid, positive, unrecorded session with an email activates, unless the new account's id is taken (500, nothing written); success credits the resolved account once, records the transaction, migrates the drafts, leaves claims and task completions alone, reports the raw draft count and the account's new balance |
| Payments.ActivationUsersFinds | server/routes/payments.ts:174-194 | after the account step the resolved account is found by its id: the new row, or the found row given the session's customer id when it had none |
| Payments.CreditNewRow | server/routes/payments.ts:180-197 | crediting a freshly appended account leaves the old rows alone and gives the new row the amount |
| Payments.CreditExistingRow | server/routes/payments.ts:188-197 | crediting an existing account raises its balance by the amount, sets a missing customer id, keeps its other columns, and leaves other users alone |
| Payments.CreditAccount | server/routes/payments.ts:174-197 | the account step and the credit together: a new account holds exactly the amount, appended after the old rows; an existing one gains the amount and a missing customer id with its other columns kept, and other rows stay |
| Payments.ActivationCreditsResolvedAccount | server/routes/payments.ts:162-197 | activation credits the metadata id's account when it exists, else the email's account, raising its balance by the amount |
| Payments.ActivateVerifyIdempotent | server/routes/payments.ts:144-152 | activating with the same session again changes nothing |
| Payments.BlankDraftsStillDeleteDefault | server/routes/payments.ts:205-227 | a non-empty list of blank drafts inserts nothing yet still deletes the default-named bots |
| Payments.DefaultNamedDraftIsRemoved | server/routes/payments.ts:216-226 | as written, a migrated draft whose name ends in "'s Bot" is deleted by the same request |
| Payments.SignupBotNameLooksDefault | server/routes/payments.ts:226 | every "<name>'s Bot" matches the clean-up pattern |
| Auth.Signup | server/routes/auth.ts:27-67 | 400 for a missing field, 400 for a password under 8, 409 for a known email, all without writes; success inserts exactly one user and one bot named "<name>'s Bot" |
| Auth.Login | server/routes/auth.ts:69-101 | sign-in succeeds exactly for a known email with a matching password; unknown email and wrong password give the same answer |
| Auth.SignupThenLogin | server/routes/auth.ts:48-91 | a fresh account can log in with its password |
| Auth.FirstByEmailAfterAppend | server/routes/auth.ts:40-50 | an account with a new email is what the email lookup finds |
| Auth.SignupTwiceRefused | server/routes/auth.ts:40-43 | signing up again with the same email is refused with nothing written |
| Auth.SignupBotIsDefault | server/routes/auth.ts:52-55 | the signup bot is one that activation later removes |
| Auth.RequestMagicLink | server/routes/auth.ts:104-165 | an unknown email stores nothing and gets the generic answer; a known one stores a token for that email expiring 900000 ms later, even when the email then fails |
| Auth.MagicLinkDoesNotEnumerate | server/routes/auth.ts:117-121 | unless the email fails to send, a known email and an unknown one get the same answer |
| Auth.VerifyMagicLink | server/routes/auth.ts:168-209 | an unknown token is refused; a known token is deleted whatever the outcome; sign-in happens exactly for an unexpired token whose account exists |
| Auth.MagicLinkSingleUse | server/routes/auth.ts:187-188 | a token that signed in is refused on replay |
| Auth.MagicLinkLifetimeWindow | server/routes/auth.ts:124-185 | a link works up to and including 15 minutes after issue and is expired afterwards |
| Auth.Sweep | server/routes/auth.ts:20-25 | the sweep keeps exactly the tokens not yet expired, unchanged |
| Auth.SweepKeepsLiveLinks | server/routes/auth.ts:20-25 | sweeping never changes the outcome for a live link |
| Auth.SweepRemovesExpired | server/routes/auth.ts:20-25 | a swept expired token is no longer known at all |
| BotList.Initial | src/hooks/useBots.ts:31-35 | the list starts empty and loading, with the selection equal to its stored copy |
| BotList.FindById | src/hooks/useBots.ts:70 | the found bot has the selected id, and none is found only when no bot has it |
| BotList.SelectedBot | src/hooks/useBots.ts:70 | the bot with the selected id, else the first bot, else none; none exactly for an empty list |
| BotList.Select | src/hooks/useBots.ts:65-68 | the selection and its stored copy both become the id |
| BotList.SelectShowsBot | src/hooks/useBots.ts:65-70 | selecting a listed bot shows it |
| BotList.Refresh | src/hooks/useBots.ts:39-59 | signed out or on failure the list empties; otherwise it is the server's list, and the first bot is selected only when there was no selection |
| BotList.CreateBot | src/hooks/useBots.ts:72-78 | the new bot goes first and becomes the selection |
| BotList.CreateShowsCreated | src/hooks/useBots.ts:70-78 | after creating, the new bot is shown as selected |
| BotList.ReplaceById | src/hooks/useBots.ts:82 | bots with the id are replaced and all others stay in place |
| BotList.UpdateBot | src/hooks/useBots.ts:80-83 | the length and every other bot are unchanged and the selection is untouched |
| BotList.UpdateKeepsSelection | src/hooks/useBots.ts:70-83 | an update that keeps the id keeps that bot selected |
| BotList.RemoveId | src/hooks/useBots.ts:88 | exactly the bots with other ids remain |
| BotList.RemoveIdAppend | src/hooks/useBots.ts:88 | removal distributes over concatenation, so the remaining bots keep their order |
| BotList.RemoveIdIdempotent | src/hooks/useBots.ts:88 | removing an id twice is removing it once |
| BotList.DeleteBot | src/hooks/useBots.ts:85-95 | the bot leaves the list; if it was selected and others remain the first remaining becomes the selection, otherwise the selection is unchanged |
| BotList.DeletedNotSelected | src/hooks/useBots.ts:70-95 | the deleted bot is never shown as selected afterwards |
| BotList.RunKeepsSynced | src/hooks/useBots.ts:39-95 | over any sequence of operations the selection and its stored copy stay equal |
| Onboarding.Update | src/routes/Onboarding.tsx:38-40 | every field present in the patch is overwritten with its value and every absent one kept |
| Onboarding.UpdateComposes | src/routes/Onboarding.tsx:38-40 | two updates equal one update with the later keys winning |
| Onboarding.UpdateIdentityAndIdempotent | src/routes/Onboarding.tsx:38-40 | an empty patch changes nothing and repeating a patch changes nothing more |
| Onboarding.Title | src/routes/Onboarding.tsx:58 | the header shows the bot name, or "New Bot" when it is empty |
| Onboarding.Start | src/routes/Onboarding.tsx:27-36 | the wizard starts at step 1 when signed in, else 0, with the default draft |
| Onboarding.Next | src/routes/Onboarding.tsx:42 | next advances by one below step 7, stays at 7, and keeps the bounds |
| Onboarding.Back | src/routes/Onboarding.tsx:43 | back goes down by one above the first step, stays there otherwise, and keeps the bounds |
| Onboarding.NextBackInverse | src/routes/Onboarding.tsx:42-43 | back undoes next and next undoes back away from the ends |
| Onboarding.RunInBounds | src/routes/Onboarding.tsx:42-43 | any sequence of clicks and edits keeps the step between the first step and 7 |
| Onboarding.VisibleSteps | src/routes/Onboarding.tsx:47 | the progress bar has one entry fewer when signed in, the hidden account step |
| Onboarding.ProgressNamesCurrentStep | src/routes/Onboarding.tsx:47-48 | the progress index is always in range and names the current step |
| Integrations.AvailableIdsMatchCatalogue | src/components/onboarding/IntegrationsStep.tsx:4-15 | the toggle accepts exactly gmail, calendar, github, browser, obsidian and sheets |
| Integrations.FilterAvailable | src/components/onboarding/IntegrationsStep.tsx:37-38 | a list holds exactly the catalogue entries with that availability |
| Integrations.FilterPartitions | src/components/onboarding/IntegrationsStep.tsx:37-38 | the two lists together are as long as the catalogue |
| Integrations.CatalogueSplit | src/components/onboarding/IntegrationsStep.tsx:37-38 | available and coming soon partition the catalogue |
| Integrations.Without | src/components/onboarding/IntegrationsStep.tsx:30 | every occurrence of the id is removed and all else kept |
| Integrations.WithoutAppend | src/components/onboarding/IntegrationsStep.tsx:30 | removal distributes over concatenation, so the rest keeps its order |
| Integrations.Toggle | src/components/onboarding/IntegrationsStep.tsx:25-34 | unknown or unavailable ids change nothing; an available id flips membership, being appended at the end when absent; other ids keep their membership |
| Integrations.ToggleData | src/components/onboarding/IntegrationsStep.tsx:25-36 | toggling flips whether the id is selected and touches no other draft field |
| Integrations.WithoutAppended | src/components/onboarding/IntegrationsStep.tsx:29-32 | removing a just-appended new id gives back the list |
| Integrations.ToggleTwiceRestores | src/components/onboarding/IntegrationsStep.tsx:25-33 | toggling an absent id twice restores the list exactly |
| Integrations.WithoutDistinct | src/components/onboarding/IntegrationsStep.tsx:30 | removal keeps a duplicate-free list duplicate-free |
| Integrations.TogglePreservesWellFormed | src/components/onboarding/IntegrationsStep.tsx:26-32 | toggles never introduce a duplicate or an unavailable id |
| TestChat.BotName | src/components/onboarding/TestChatStep.tsx:11 | the name is the bot name, or "Bot" when it is empty |
| TestChat.IntegrationSkills | src/components/onboarding/TestChatStep.tsx:20-24 | each phrase comes from a selected integration, and the list is empty exactly when none is selected |
| TestChat.IntegrationSkillsAppend | src/components/onboarding/TestChatStep.tsx:20-24 | the phrases of two tables are those of the first followed by those of the second, so phrases keep table order |
| TestChat.IntegrationSkillsSingle | src/components/onboarding/TestChatStep.tsx:20-24 | one entry contributes its phrase exactly when its integration is selected |
| TestChat.IntegrationSkillsIncludesSelected | src/components/onboarding/TestChatStep.tsx:20-24 | every selected integration's phrase is in the list |
| TestChat.Skills | src/components/onboarding/TestChatStep.tsx:18-24 | "chat on" the channel comes first when there is a channel, then the integration phrases; every selected integration's phrase appears; there are no skills exactly when there is no channel and none of the five is selected |
| TestChat.TopicOf | src/components/onboarding/TestChatStep.tsx:12-33 | greeting words win, then help words, then identity words |
| TestChat.Respond | src/components/onboarding/TestChatStep.tsx:10-42 | the reply for each topic: greeting, skills or generic help, identity, or the chosen one of four fallbacks |
| TestChat.JoinContainsParts | src/components/onboarding/TestChatStep.tsx:27 | every skill appears in the comma-joined list |
| TestChat.HelpReplyListsSkills | src/components/onboarding/TestChatStep.tsx:17-28 | a help reply names every skill the draft has |
| TestChat.GreetingNamesBot | src/components/onboarding/TestChatStep.tsx:14-16 | the greeting names the bot |
| TestChat.HelpWithThisGreets | src/components/onboarding/TestChatStep.tsx:14-17 | as written, "help with this" gets the greeting because "this" contains "hi" |
| TestChat.HelloChipGreets | src/components/onboarding/TestChatStep.tsx:60 | the "Hello!" suggestion gets the greeting |
| TestChat.Start | src/components/onboarding/TestChatStep.tsx:51-56 | the chat opens with one bot line and nothing pending |
| TestChat.Send | src/components/onboarding/TestChatStep.tsx:62-67 | blank input or input while typing is ignored; otherwise one trimmed user line is appended and typing starts |
| TestChat.Reply | src/components/onboarding/TestChatStep.tsx:69-73 | the timer appends the reply to the untrimmed text and ends typing |
| TestChat.OneReplyAtATime | src/components/onboarding/TestChatStep.tsx:62-73 | a second message while a reply is pending is dropped; one exchange adds exactly two lines and reopens the chat |
| Dashboard.StatusColor | src/routes/Dashboard.tsx:21-54 | an unknown status gets the offline colour, and only unknown or offline statuses do |
| Dashboard.StatusLabel | src/routes/Dashboard.tsx:28-33 | online, offline, starting and draft show as "Online — 24/7", "Offline", "Starting..." and "Draft — Not Active"; any other status is shown as itself |
| Dashboard.BadgeColourMatchesLabel | src/routes/Dashboard.tsx:21-33 | the badge is grey exactly for "offline" and for the statuses the label map shows unchanged |
| Dashboard.CompletedCount | src/routes/Dashboard.tsx:211 | the count is the number of true flags among the four items, so at most 4, 4 exactly when all hold and 0 exactly when none does |
| Dashboard.GettingStarted | src/routes/Dashboard.tsx:198-214 | the checklist shows the four flags (some bot, a customised prompt, signed in, more than one bot) and disappears exactly when all four hold |
| Dashboard.PerBot | src/routes/Dashboard.tsx:289-296 | at most two suggestions per bot; activate for a name exactly when a draft bot has it, and edit prompt exactly when a bot with an empty or default prompt has it |
| Dashboard.PerBotAppend | src/routes/Dashboard.tsx:289-296 | per-bot suggestions follow bot order |
| Dashboard.Suggestions | src/routes/Dashboard.tsx:286-305 | the per-bot suggestions come first; "share" follows them exactly when a non-draft bot exists; "new bot" appears, last, exactly when there is one bot |
| Dashboard.ShownSuggestions | src/routes/Dashboard.tsx:307-316 | nothing renders for an empty list; otherwise the first three, or all when fewer |
| Dashboard.NoBotsNoSuggestions | src/routes/Dashboard.tsx:286-307 | with no bots nothing renders |
| Dashboard.DraftWithDefaultPromptFirst | src/routes/Dashboard.tsx:290-295 | a first bot that is a draft with the default prompt yields activate, then edit prompt |
| Dashboard.OneCustomLiveBot | src/routes/Dashboard.tsx:298-305 | one live bot with its own prompt yields exactly share and new bot |
| Dashboard.ClaimBanner | src/routes/Dashboard.tsx:371-428 | nothing when signed out or loading; the confirmation exactly when claimed with a record; the call to action exactly when not confirmed, with bots, not claimed and spots left |
| Dashboard.BannerFollowsServer | src/routes/Dashboard.tsx:375-403 | against the server's status, the confirmation shows exactly when the user holds a claim, with that claim's shortened wallet, and the call to action exactly for an unclaimed user with bots while spots remain |
| Dashboard.SliceTo | src/routes/Dashboard.tsx:387 | `slice(0, n)` is the first n characters, or all when shorter |
| Dashboard.SliceLast | src/routes/Dashboard.tsx:387 | `slice(-n)` is the last n characters, or all when shorter |
| Dashboard.ShortWallet | src/routes/Dashboard.tsx:387 | an address of 10 or more characters shows as its first 6, "...", and its last 4 |
| Dashboard.ReservedWalletShortens | src/routes/Dashboard.tsx:387 | every reserved wallet, which the claim rules make 32 to 44 long, shortens to 13 characters |

## Left out

- WebSocket open, close and error handling, `JSON.parse`, the offline reply timer and the React effects of the public chat are transport. Frames arrive already decoded.
- A closed socket resetting the connected flag is left out with the rest of the transport.
- src/routes/Chat.tsx is not part of this model. Its streaming lives in a hook that is not available here.
- The payment processor, webhook signature checking, bcrypt, JWT signing and the email service are opaque. Their results are inputs, and failures of processor calls (500 answers) are not modelled.
- Random ids (UUIDs, bot ids, magic tokens) are parameters. Activation answers 500 when the new account's id is already taken; everywhere else a collision is not modelled and the ids are assumed fresh.
- Foreign keys follow better-sqlite3's default, under which SQLite enforces them: a transaction for a user id without an account fails its insert. `/verify` then answers 500 from its catch; the webhook has no catch, so the model answers `Unanswered` and writes nothing. Whether the driver's default is in effect is an assumption: the schema sets no pragma for it.
- Claims.CompleteTask and the reserve route: the `claims` foreign key is not modelled. A user without an account can own no bot, and the "bot" task needs one, so such a user never gets to a claim insert.
- Onboarding.Back, Onboarding.VisibleSteps: `loggedIn` is fixed when the wizard starts. The source re-reads the stored token on every render, so after a signup inside the wizard, back no longer returns to the account step and the progress bar drops it. Signing up from inside the wizard is not modelled.
- PublicChat: a content part whose `text` is not a string (for example a number) is joined in as JavaScript converts it; the model's parts carry strings only.
- Claims.CompleteTask: proofs are strings or absent. A non-string proof for a task without a proof check is stored by the source as sent; the model cannot represent it.
- Route handlers are atomic transitions. The races between an await and a later write, such as two concurrent `/verify` calls, are not modelled.
- The `/transactions` and `/me` routes are plain reads and are not modelled.
- Dollar formatting, progress percentages and `toLocaleString` are left out.
- `parseInt` of metadata amounts is left out; amounts arrive as integers. A non-numeric amount would give `NaN`, which passes the `<= 0` check in the source.
- Payments.Verify, Payments.ActivateVerify, Payments.Webhook: the session's amount is an integer, so the `NaN` case above is not covered.
- The activation route's `draft_bot_names` metadata, and drafts whose `name` is not a string, are left out.
- String length is counted in Unicode scalar values, not UTF-16 code units. This matters only for characters outside the Basic Multilingual Plane in password and wallet lengths.
- `toLowerCase` is modelled for ASCII letters only.
- A caller is `None` when the bearer token yields no user id. The model does not distinguish an empty id string from a missing one.
- The model does not claim that at most one message is streaming at a time: the code does not maintain it. ChatStream.ErrorLeavesPartialStreaming shows how a second streaming message arises.
- React's deferred state updates are modelled as immediate. So are the `deleteBot` closure over the selection and the `setState` inside a state updater.
- JavaScript `Record` lookups of inherited keys such as "constructor" in the status maps are left out.
- Static pages, the embed script, the settings form and the one-line enable conditions of the form steps are not modelled.

=== FILE: auth.dfy ===
/**
  The account routes: password signup and login, and the magic-link login
  whose single-use tokens live in an in-memory map with a fifteen-minute
  lifetime. Password hashing is opaque: signup receives the hash, and login
  receives the hash comparison as a function. Token signing is left out; a
  successful login is represented by the account it signs in.
*/
module Auth {
  import opened Wrappers
  import opened Db
  import Payments

  /** `15 * 60 * 1000` milliseconds. */
  const MagicLinkLifetime: int := 900000
  const MinPasswordLength: nat := 8

  /** One entry of `magicTokens`. */
  datatype TokenData = TokenData(email: string, expiresAt: int)

  type Tokens = map<string, TokenData>

  datatype Response =
    | MissingFields   // 400
    | PasswordTooShort   // 400
    | EmailTaken   // 409
    | InvalidCredentials   // 401, the same for an unknown email and a wrong password
    | LinkSent   // 200, the same whether or not the account exists
    | EmailFailed   // 500
    | InvalidLink   // 401
    | LinkExpired   // 401
    | AccountNotFound   // 401
    | SignedIn(id: string, name: string, email: string)

  function Code(r: Response): int {
    match r
    case MissingFields => 400
    case PasswordTooShort => 400
    case EmailTaken => 409
    case InvalidCredentials => 401
    case EmailFailed => 500
    case InvalidLink => 401
    case LinkExpired => 401
    case AccountNotFound => 401
    case _ => 200
  }

  /** The account bot signup creates: "<name>'s Bot" with the column defaults. */
  function DefaultBot(botId: string, userId: string, name: string): BotRow {
    BotRow(botId, userId, name + "'s Bot", "friendly", "anthropic", "", "", "offline")
  }

  /** `POST /signup`. `userId`, `botId` and `passwordHash` are the handler's
      generated values. */
  function Signup(t: Tables, name: string, email: string, password: string,
                  userId: string, botId: string, passwordHash: string): (r: (Tables, Response))
    ensures name == "" || email == "" || password == "" ==> r == (t, MissingFields)
    ensures name != "" && email != "" && password != "" && |password| < MinPasswordLength ==> r == (t, PasswordTooShort)
    ensures (&& name != "" && email != "" && |password| >= MinPasswordLength
             && UserByEmail(t.users, email).Some?) ==> r == (t, EmailTaken)
    ensures r.1.SignedIn? <==>
      name != "" && email != "" && |password| >= MinPasswordLength && UserByEmail(t.users, email).None?
    ensures r.1.SignedIn? ==>
      && r.1 == SignedIn(userId, name, email)
      && r.0 == t.(users := t.users + [UserRow(userId, name, email, passwordHash, 0, None)],
                   bots := t.bots + [DefaultBot(botId, userId, name)])
    ensures !r.1.SignedIn? ==> r.0 == t
  {
    if name == "" || email == "" || password == "" then (t, MissingFields)
    else if |password| < MinPasswordLength then (t, PasswordTooShort)
    else if UserByEmail(t.users, email).Some? then (t, EmailTaken)
    else
      (t.(users := t.users + [UserRow(userId, name, email, passwordHash, 0, None)],
          bots := t.bots + [DefaultBot(botId, userId, name)]),
       SignedIn(userId, name, email))
  }

  /** `POST /login`. `compare(password, hash)` stands for the hash check. */
  function Login(t: Tables, email: string, password: string, compare: (string, string) -> bool): (r: Response)
    ensures email == "" || password == "" ==> r == MissingFields
    ensures r.SignedIn? <==>
      && email != "" && password != ""
      && UserByEmail(t.users, email).Some? && compare(password, UserByEmail(t.users, email).value.passwordHash)
    ensures r.SignedIn? ==> r.id == UserByEmail(t.users, email).value.id && r.email == email
    ensures email != "" && password != "" && !r.SignedIn? ==> r == InvalidCredentials
  {
    if email == "" || password == "" then MissingFields
    else
      match UserByEmail(t.users, email)
      case None => InvalidCredentials
      case Some(u) =>
        if !compare(password, u.passwordHash) then InvalidCredentials
        else SignedIn(u.id, u.name, u.email)
  }

  /** A fresh signup can log in at once with its own password. */
  lemma SignupThenLogin(t: Tables, name: string, email: string, password: string,
                        userId: string, botId: string, hash: string, compare: (string, string) -> bool)
    requires Signup(t, name, email, password, userId, botId, hash).1.SignedIn?
    requires compare(password, hash)
    ensures Login(Signup(t, name, email, password, userId, botId, hash).0, email, password, compare)
            == SignedIn(userId, name, email)
  {
    var t' := Signup(t, name, email, password, userId, botId, hash).0;
    FirstByEmailAfterAppend(t.users, UserRow(userId, name, email, hash, 0, None));
  }

  /** Appending a user whose email is new makes that row the lookup's answer. */
  lemma {:induction false} FirstByEmailAfterAppend(users: seq<UserRow>, u: UserRow)
    requires UserByEmail(users, u.email).None?
    ensures UserByEmail(users + [u], u.email) == Some(u)
  {
    if |users| > 0 {
      assert (users + [u])[1..] == users[1..] + [u];
      FirstByEmailAfterAppend(users[1..], u);
    }
  }

  /** A second signup with the same email is refused, whatever else differs. */
  lemma SignupTwiceRefused(t: Tables, name: string, email: string, password: string,
                           userId: string, botId: string, hash: string,
                           name2: string, password2: string, userId2: string, botId2: string, hash2: string)
    requires Signup(t, name, email, password, userId, botId, hash).1.SignedIn?
    requires name2 != "" && |password2| >= MinPasswordLength
    ensures var t' := Signup(t, name, email, password, userId, botId, hash).0;
      Signup(t', name2, email, password2, userId2, botId2, hash2) == (t', EmailTaken)
  {
    FirstByEmailAfterAppend(t.users, UserRow(userId, name, email, hash, 0, None));
  }

  /** The bot signup creates is one the activation clean-up treats as a default. */
  lemma SignupBotIsDefault(botId: string, userId: string, name: string)
    ensures Payments.LooksLikeDefaultName(DefaultBot(botId, userId, name).name)
  {
    Payments.SignupBotNameLooksDefault(name);
  }

  // ----- magic links -----

  /** How the email service behaves for one request. */
  datatype Mailer = NoService | Delivered | DeliveryFails

  /** `POST /magic-link`. `token` is the generated secret and `now` the clock. */
  function RequestMagicLink(t: Tables, tokens: Tokens, email: string, token: string, now: int,
                            mailer: Mailer): (r: (Tokens, Response))
    ensures email == "" ==> r == (tokens, MissingFields)
    ensures email != "" && UserByEmail(t.users, email).None? ==> r == (tokens, LinkSent)
    ensures email != "" && UserByEmail(t.users, email).Some? ==>
      && r.0 == tokens[token := TokenData(email, now + MagicLinkLifetime)]
      && r.1 == (if mailer == DeliveryFails then EmailFailed else LinkSent)
  {
    if email == "" then (tokens, MissingFields)
    else
      match UserByEmail(t.users, email)
      case None => (tokens, LinkSent)
      case Some(u) =>
        var tokens' := tokens[token := TokenData(u.email, now + MagicLinkLifetime)];
        if mailer == DeliveryFails then (tokens', EmailFailed) else (tokens', LinkSent)
  }

  /** The answer does not reveal whether an account exists. */
  lemma MagicLinkDoesNotEnumerate(t: Tables, tokens: Tokens, known: string, unknown: string,
                                  token: string, now: int, mailer: Mailer)
    requires known != "" && unknown != ""
    requires UserByEmail(t.users, known).Some? && UserByEmail(t.users, unknown).None?
    requires mailer != DeliveryFails
    ensures RequestMagicLink(t, tokens, known, token, now, mailer).1
            == RequestMagicLink(t, tokens, unknown, token, now, mailer).1
  {
  }

  /** `POST /verify-magic-link`. */
  function VerifyMagicLink(t: Tables, tokens: Tokens, token: string, now: int): (r: (Tokens, Response))
    ensures token == "" ==> r == (tokens, MissingFields)
    ensures token != "" && token !in tokens ==> r == (tokens, InvalidLink)
    // a known token is consumed whatever the outcome
    ensures token != "" && token in tokens ==> r.0 == tokens - {token}
    ensures token != "" && token in tokens && tokens[token].expiresAt < now ==> r.1 == LinkExpired
    ensures r.1.SignedIn? <==>
      && token != "" && token in tokens && now <= tokens[token].expiresAt
      && UserByEmail(t.users, tokens[token].email).Some?
    ensures r.1.SignedIn? ==> r.1.email == tokens[token].email
  {
    if token == "" then (tokens, MissingFields)
    else if token !in tokens then (tokens, InvalidLink)
    else
      var data := tokens[token];
      if data.expiresAt < now then (tokens - {token}, LinkExpired)
      else
        match UserByEmail(t.users, data.email)
        case None => (tokens - {token}, AccountNotFound)
        case Some(u) => (tokens - {token}, SignedIn(u.id, u.name, u.email))
  }

  /** A link works once: replaying it is refused. */
  lemma MagicLinkSingleUse(t: Tables, tokens: Tokens, token: string, now: int, later: int)
    requires VerifyMagicLink(t, tokens, token, now).1.SignedIn?
    ensures VerifyMagicLink(t, VerifyMagicLink(t, tokens, token, now).0, token, later).1 == InvalidLink
  {
  }

  /** A link requested at `now` signs in up to and including
      `now + MagicLinkLifetime`, and is expired after that. */
  lemma MagicLinkLifetimeWindow(t: Tables, tokens: Tokens, email: string, token: string,
                                now: int, mailer: Mailer, at: int)
    requires email != "" && UserByEmail(t.users, email).Some?
    requires token != ""
    ensures var issued := RequestMagicLink(t, tokens, email, token, now, mailer).0;
      && (at <= now + MagicLinkLifetime ==> VerifyMagicLink(t, issued, token, at).1.SignedIn?)
      && (at > now + MagicLinkLifetime ==> VerifyMagicLink(t, issued, token, at).1 == LinkExpired)
  {
  }

  /** The periodic sweep: drop every token whose expiry is before `now`. */
  function Sweep(tokens: Tokens, now: int): (r: Tokens)
    ensures forall k :: k in r <==> k in tokens && now <= tokens[k].expiresAt
    ensures forall k :: k in r ==> r[k] == tokens[k]
  {
    map k | k in tokens && now <= tokens[k].expiresAt :: tokens[k]
  }

  /** Sweeping never changes the outcome of a sign-in with a live link. */
  lemma SweepKeepsLiveLinks(t: Tables, tokens: Tokens, token: string, sweptAt: int, now: int)
    requires sweptAt <= now
    requires token in tokens && now <= tokens[token].expiresAt
    ensures VerifyMagicLink(t, Sweep(tokens, sweptAt), token, now).1 == VerifyMagicLink(t, tokens, token, now).1
  {
  }

  /** After a sweep, a link that had expired is no longer known at all. */
  lemma SweepRemovesExpired(t: Tables, tokens: Tokens, token: string, sweptAt: int, now: int)
    requires token != "" && token in tokens && tokens[token].expiresAt < sweptAt
    ensures VerifyMagicLink(t, Sweep(tokens, sweptAt), token, now).1 == InvalidLink
  {
  }
}

=== FILE: bot_list.dfy ===
/**
  The browser's list of the user's bots and the selected bot. The selection
  is an id kept in component state and mirrored into local storage under
  `af-selected-bot`; the bot shown as selected falls back to the first bot
  when the id names none. Server calls are replaced by their results.
*/
module BotList {
  import opened Wrappers

  datatype Bot = Bot(id: string, name: string, persona: string, model: string, channel: string,
                     systemPrompt: string, status: string)

  /** Component state plus the stored selection. */
  datatype BotsState = BotsState(bots: seq<Bot>, selectedId: Option<string>, stored: Option<string>, loading: bool)

  /** The selection and its stored copy agree. */
  predicate Synced(st: BotsState) {
    st.selectedId == st.stored
  }

  /** The state on mount: the selection read back from storage. */
  function Initial(stored: Option<string>): (st: BotsState)
    ensures Synced(st) && st.loading && st.bots == []
  {
    BotsState([], stored, stored, true)
  }

  /** `bots.find((b) => b.id === id)`. */
  function FindById(bots: seq<Bot>, id: Option<string>): (r: Option<Bot>)
    ensures r.Some? ==> r.value in bots && Some(r.value.id) == id
    ensures r.None? <==> forall k :: 0 <= k < |bots| ==> Some(bots[k].id) != id
  {
    if |bots| == 0 then None
    else if Some(bots[0].id) == id then Some(bots[0])
    else FindById(bots[1..], id)
  }

  /** `bots.find(...) || bots[0] || null`. */
  function SelectedBot(st: BotsState): (r: Option<Bot>)
    ensures r.None? <==> st.bots == []
    ensures r.Some? ==> r.value in st.bots
    ensures FindById(st.bots, st.selectedId).Some? ==> r == FindById(st.bots, st.selectedId)
    ensures FindById(st.bots, st.selectedId).None? && st.bots != [] ==> r == Some(st.bots[0])
  {
    match FindById(st.bots, st.selectedId)
    case Some(b) => Some(b)
    case None => if |st.bots| > 0 then Some(st.bots[0]) else None
  }

  /** Stores `id` both in state and in local storage. */
  function Select(st: BotsState, id: string): (r: BotsState)
    ensures Synced(r) && r.selectedId == Some(id)
    ensures r.bots == st.bots && r.loading == st.loading
  {
    st.(selectedId := Some(id), stored := Some(id))
  }

  /** `selectBot(id)`: a listed id becomes the shown selection. */
  lemma SelectShowsBot(st: BotsState, b: Bot)
    requires b in st.bots
    ensures SelectedBot(Select(st, b.id)).Some?
    ensures SelectedBot(Select(st, b.id)).value.id == b.id
  {
  }

  /** `refresh()`. `fetched` is the server's list, or None when the request
      failed; signed-out refreshes do not call the server. */
  function Refresh(st: BotsState, authenticated: bool, fetched: Option<seq<Bot>>): (r: BotsState)
    ensures !r.loading
    ensures !authenticated || fetched.None? ==> r.bots == [] && r.selectedId == st.selectedId && r.stored == st.stored
    ensures authenticated && fetched.Some? ==> r.bots == fetched.value
    // the first bot is chosen only when there is no selection yet
    ensures authenticated && fetched.Some? && fetched.value != [] && (st.selectedId.None? || st.selectedId == Some("")) ==>
      r.selectedId == Some(fetched.value[0].id) && r.stored == r.selectedId
    ensures st.selectedId.Some? && st.selectedId != Some("") ==> r.selectedId == st.selectedId && r.stored == st.stored
  {
    if !authenticated then st.(bots := [], loading := false)
    else
      match fetched
      case None => st.(bots := [], loading := false)
      case Some(bs) =>
        var st' := st.(bots := bs, loading := false);
        if |bs| > 0 && (st.selectedId.None? || st.selectedId == Some("")) then Select(st', bs[0].id) else st'
  }

  /** `createBot(data)`: the created bot goes first and becomes the selection. */
  function CreateBot(st: BotsState, created: Bot): (r: BotsState)
    ensures r.bots == [created] + st.bots
    ensures Synced(r) && r.selectedId == Some(created.id)
  {
    Select(st.(bots := [created] + st.bots), created.id)
  }

  /** The bot just created is the one shown as selected. */
  lemma CreateShowsCreated(st: BotsState, created: Bot)
    ensures SelectedBot(CreateBot(st, created)) == Some(created)
  {
  }

  /** `prev.map((b) => (b.id === id ? updated : b))`. */
  function ReplaceById(bots: seq<Bot>, id: string, updated: Bot): (r: seq<Bot>)
    ensures |r| == |bots|
    ensures forall k :: 0 <= k < |bots| ==> r[k] == if bots[k].id == id then updated else bots[k]
  {
    seq(|bots|, k requires 0 <= k < |bots| => if bots[k].id == id then updated else bots[k])
  }

  /** `updateBot(id, data)`: the server's copy replaces the listed one. */
  function UpdateBot(st: BotsState, id: string, updated: Bot): (r: BotsState)
    ensures r.selectedId == st.selectedId && r.stored == st.stored && r.loading == st.loading
    ensures |r.bots| == |st.bots|
    ensures forall k :: 0 <= k < |st.bots| && st.bots[k].id != id ==> r.bots[k] == st.bots[k]
    ensures forall k :: 0 <= k < |st.bots| && st.bots[k].id == id ==> r.bots[k] == updated
  {
    st.(bots := ReplaceById(st.bots, id, updated))
  }

  /** An update that keeps the id keeps the selection pointing at the
      updated bot. */
  lemma {:induction false} UpdateKeepsSelection(bots: seq<Bot>, id: string, updated: Bot)
    requires updated.id == id
    requires FindById(bots, Some(id)).Some?
    ensures FindById(ReplaceById(bots, id, updated), Some(id)) == Some(updated)
  {
    if bots[0].id != id {
      assert ReplaceById(bots, id, updated)[1..] == ReplaceById(bots[1..], id, updated);
      UpdateKeepsSelection(bots[1..], id, updated);
    }
  }

  /** `prev.filter((b) => b.id !== id)`. */
  function RemoveId(bots: seq<Bot>, id: string): (r: seq<Bot>)
    ensures |r| <= |bots|
    ensures forall b :: b in r <==> b in bots && b.id != id
    decreases |bots|
  {
    if |bots| == 0 then []
    else if bots[0].id == id then RemoveId(bots[1..], id)
    else [bots[0]] + RemoveId(bots[1..], id)
  }

  /** Filtering distributes over concatenation. */
  lemma {:induction false} RemoveIdAppend(a: seq<Bot>, b: seq<Bot>, id: string)
    ensures RemoveId(a + b, id) == RemoveId(a, id) + RemoveId(b, id)
    decreases |a|
  {
    if |a| == 0 {
      assert a + b == b;
    } else {
      assert (a + b)[1..] == a[1..] + b;
      RemoveIdAppend(a[1..], b, id);
    }
  }

  /** Removing an id twice is removing it once. */
  lemma {:induction false} RemoveIdIdempotent(bots: seq<Bot>, id: string)
    ensures RemoveId(RemoveId(bots, id), id) == RemoveId(bots, id)
    decreases |bots|
  {
    if |bots| > 0 {
      RemoveIdIdempotent(bots[1..], id);
    }
  }

  /** `deleteBot(id)`: the bot leaves the list; when it was the selection,
      the first remaining bot takes its place. */
  function DeleteBot(st: BotsState, id: string): (r: BotsState)
    ensures r.bots == RemoveId(st.bots, id)
    ensures st.selectedId == Some(id) && r.bots != [] ==> r.selectedId == Some(r.bots[0].id) && Synced(r)
    ensures st.selectedId != Some(id) || r.bots == [] ==> r.selectedId == st.selectedId && r.stored == st.stored
  {
    var remaining := RemoveId(st.bots, id);
    if st.selectedId == Some(id) && |remaining| > 0 then Select(st.(bots := remaining), remaining[0].id)
    else st.(bots := remaining)
  }

  /** The deleted bot is never the one shown as selected afterwards. */
  lemma DeletedNotSelected(st: BotsState, id: string)
    ensures var s := SelectedBot(DeleteBot(st, id)); s.None? || s.value.id != id
  {
  }

  /** One step of the list's lifecycle. */
  datatype Action =
    | Refreshed(authenticated: bool, fetched: Option<seq<Bot>>)
    | Selected(id: string)
    | Created(bot: Bot)
    | Updated(id: string, bot: Bot)
    | Deleted(id: string)

  function Apply(st: BotsState, a: Action): BotsState {
    match a
    case Refreshed(auth, fetched) => Refresh(st, auth, fetched)
    case Selected(id) => Select(st, id)
    case Created(b) => CreateBot(st, b)
    case Updated(id, b) => UpdateBot(st, id, b)
    case Deleted(id) => DeleteBot(st, id)
  }

  function Run(st: BotsState, actions: seq<Action>): BotsState
    decreases |actions|
  {
    if |actions| == 0 then st else Run(Apply(st, actions[0]), actions[1..])
  }

  /** Every operation writes the selection and its stored copy together, so
      they never drift apart. */
  lemma {:induction false} RunKeepsSynced(st: BotsState, actions: seq<Action>)
    requires Synced(st)
    ensures Synced(Run(st, actions))
    decreases |actions|
  {
    if |actions| > 0 {
      assert Synced(Apply(st, actions[0]));
      RunKeepsSynced(Apply(st, actions[0]), actions[1..]);
    }
  }
}

=== FILE: chat_stream.dfy ===
/**
  The public chat widget's conversation logic: normalising gateway message
  content to text, folding `delta` / `final` / `error` chat events into the
  message list and the stream buffer, gating a new user turn, and the
  request frames it sends. Frames arrive already decoded; the socket, JSON
  parsing and timers are outside the model, and the clock is a parameter.
*/
module ChatStream {
  import opened Text
  import opened Wrappers
  import MessageLimit

  // ----- content normalisation -----

  /** One element of an array-shaped `content`. */
  datatype Part =
    | StrPart(s: string)   // a string element
    | TextPart(text: string)   // a non-null object that has a `text` field
    | OtherPart   // anything else: null, a number, an object without `text`

  /** The `message.content` of a chat event, as far as `extractText` and
      JavaScript truthiness tell values apart. */
  datatype Content =
    | Str(s: string)
    | Parts(parts: seq<Part>)
    | OtherValue   // a truthy value that is neither a string nor an array
    | Missing   // `message` or `content` absent, or a falsy non-string value

  /** `!!content`: the empty string is the only falsy string; every array is truthy. */
  predicate Truthy(c: Content) {
    match c
    case Str(s) => s != ""
    case Parts(_) => true
    case OtherValue => true
    case Missing => false
  }

  /** What one array element contributes to the joined text. */
  function PartText(p: Part): string {
    match p
    case StrPart(s) => s
    case TextPart(t) => t
    case OtherPart => ""
  }

  /** `parts.map(...).join('')`. */
  function ExtractParts(ps: seq<Part>): string {
    if |ps| == 0 then "" else PartText(ps[0]) + ExtractParts(ps[1..])
  }

  /** `extractText(content)`. */
  function ExtractText(c: Content): string {
    match c
    case Str(s) => s
    case Parts(ps) => ExtractParts(ps)
    case _ => ""
  }

  /** Extraction distributes over splitting the part list anywhere. */
  lemma {:induction false} ExtractPartsAppend(a: seq<Part>, b: seq<Part>)
    ensures ExtractParts(a + b) == ExtractParts(a) + ExtractParts(b)
  {
    if |a| > 0 {
      assert (a + b)[1..] == a[1..] + b;
      ExtractPartsAppend(a[1..], b);
    } else {
      assert a + b == b;
    }
  }

  /** Left-to-right reading: the last part's text comes last. */
  lemma ExtractPartsSnoc(ps: seq<Part>, p: Part)
    ensures ExtractParts(ps + [p]) == ExtractParts(ps) + PartText(p)
  {
    ExtractPartsAppend(ps, [p]);
  }

  /** A string and the same text as a one-element array extract alike, and
      an array of nothing but unusable parts extracts to the empty string. */
  lemma ExtractShapesAgree(s: string, n: nat)
    ensures ExtractText(Parts([StrPart(s)])) == ExtractText(Str(s))
    ensures ExtractText(Parts([TextPart(s)])) == ExtractText(Str(s))
    ensures ExtractText(Parts(seq(n, _ => OtherPart))) == ""
  {
    assert ExtractParts([StrPart(s)]) == s + ExtractParts([]);
    assert ExtractParts([TextPart(s)]) == s + ExtractParts([]);
    OtherPartsExtractEmpty(n);
  }

  lemma {:induction false} OtherPartsExtractEmpty(n: nat)
    ensures ExtractParts(seq(n, _ => OtherPart)) == ""
  {
    if n > 0 {
      assert seq(n, _ => OtherPart)[1..] == seq(n - 1, _ => OtherPart);
      OtherPartsExtractEmpty(n - 1);
    }
  }

  /** `["Hello ", {text: "world"}, {}]` gives "Hello world". */
  lemma ExtractMixedExample()
    ensures ExtractText(Parts([StrPart("Hello "), TextPart("world"), OtherPart])) == "Hello world"
  {
    var ps := [StrPart("Hello "), TextPart("world"), OtherPart];
    assert ps[1..][1..][1..] == [];
  }

  // ----- conversation state -----

  datatype Role = User | Bot

  /** Message ids: `welcome`, or a prefix with the clock reading. */
  datatype MsgId = Welcome | UserMsg(at: int) | BotMsg(at: int) | ErrorMsg(at: int)

  datatype Message = Message(id: MsgId, role: Role, text: string, streaming: bool)

  /** The widget's chat state: the message list, the stream buffer
      (`streamBufferRef`), the typing flag and the handshake flag. */
  datatype ChatState = ChatState(messages: seq<Message>, buffer: string, typing: bool, connected: bool)

  /** The state once the bot has been looked up: one welcome message. */
  function Welcomed(botName: string): (st: ChatState)
    ensures |st.messages| == 1 && !st.messages[0].streaming && st.messages[0].role == Bot
  {
    ChatState([Message(Welcome, Bot, "Hi! I'm " + botName + ". How can I help you today?", false)], "", false, false)
  }

  /** `last?.streaming`. */
  predicate LastStreaming(ms: seq<Message>) {
    |ms| > 0 && ms[|ms| - 1].streaming
  }

  datatype EventState = Delta | Final | Error | OtherState

  /** A chat event payload; an absent or empty `errorMessage` is "". */
  datatype ChatEvent = ChatEvent(state: EventState, content: Content, errorMessage: string)

  /** An inbound frame after decoding. `ok` is None when the field is absent. */
  datatype Frame =
    | Response(ok: Option<bool>)
    | Event(name: string, payload: Option<ChatEvent>)
    | Unparseable
    | OtherFrame

  const ErrorFallback: string := "Something went wrong."

  /** The text of an error message: `errorMessage || 'Something went wrong.'`. */
  function ErrorText(errorMessage: string): (r: string)
    ensures r != ""
    ensures errorMessage != "" ==> r == errorMessage
  {
    if errorMessage != "" then errorMessage else ErrorFallback
  }

  /** The messages a delta leaves: the streaming message shows the whole buffer. */
  function ShowPartial(ms: seq<Message>, buffer: string, now: int): seq<Message> {
    if LastStreaming(ms) then ms[..|ms| - 1] + [ms[|ms| - 1].(text := buffer)]
    else ms + [Message(BotMsg(now), Bot, buffer, true)]
  }

  /** The messages a final event leaves: the streaming message is frozen. */
  function Freeze(ms: seq<Message>, finalText: string): seq<Message> {
    if LastStreaming(ms) then ms[..|ms| - 1] + [ms[|ms| - 1].(text := finalText, streaming := false)]
    else ms
  }

  /** The definitive text of a final event: its own extracted content when
      that is non-empty, the accumulated buffer otherwise. */
  function FinalText(e: ChatEvent, buffer: string): string {
    var extracted := if Truthy(e.content) then ExtractText(e.content) else "";
    if extracted != "" then extracted else buffer
  }

  /** The chat-event branch of `ws.onmessage`. */
  function OnChatEvent(st: ChatState, e: ChatEvent, now: int): (r: ChatState)
    ensures r.connected == st.connected
    // a delta with content grows the buffer and shows all of it in one streaming bot message
    ensures e.state == Delta && Truthy(e.content) ==>
      && r.buffer == st.buffer + ExtractText(e.content)
      && r.typing == st.typing
      && |r.messages| == |st.messages| + (if LastStreaming(st.messages) then 0 else 1)
      && r.messages[|r.messages| - 1].text == r.buffer
      && r.messages[|r.messages| - 1].streaming
      && r.messages[|r.messages| - 1].role == (if LastStreaming(st.messages) then st.messages[|st.messages| - 1].role else Bot)
      && r.messages[..|st.messages| - (if LastStreaming(st.messages) then 1 else 0)]
         == st.messages[..|st.messages| - (if LastStreaming(st.messages) then 1 else 0)]
    // a delta without content changes nothing
    ensures e.state == Delta && !Truthy(e.content) ==> r == st
    // a final event freezes the streaming message and always empties the buffer
    ensures e.state == Final ==>
      && r.buffer == "" && !r.typing
      && |r.messages| == |st.messages|
      && (LastStreaming(st.messages) ==>
            && r.messages[..|st.messages| - 1] == st.messages[..|st.messages| - 1]
            && r.messages[|r.messages| - 1] == st.messages[|st.messages| - 1].(text := FinalText(e, st.buffer), streaming := false))
      && (!LastStreaming(st.messages) ==> r.messages == st.messages)
    // an error appends one bot message and keeps every earlier one
    ensures e.state == Error ==>
      && r.buffer == "" && !r.typing
      && r.messages == st.messages + [Message(ErrorMsg(now), Bot, ErrorText(e.errorMessage), false)]
    ensures e.state == OtherState ==> r == st
  {
    match e.state
    case Delta =>
      if !Truthy(e.content) then st
      else
        var buffer := st.buffer + ExtractText(e.content);
        st.(buffer := buffer, messages := ShowPartial(st.messages, buffer, now))
    case Final =>
      st.(messages := Freeze(st.messages, FinalText(e, st.buffer)), buffer := "", typing := false)
    case Error =>
      st.(messages := st.messages + [Message(ErrorMsg(now), Bot, ErrorText(e.errorMessage), false)],
          buffer := "", typing := false)
    case OtherState => st
  }

  /** `ws.onmessage` for one decoded frame. A response with `ok` set marks the
      handshake done when `ok` holds; a chat event goes to `OnChatEvent`; an
      event without payload, an unparseable or any other frame is ignored. */
  function Step(st: ChatState, f: Frame, now: int): (r: ChatState)
    ensures f.Unparseable? || f.OtherFrame? ==> r == st
    ensures f.Event? && (f.name != "chat" || f.payload.None?) ==> r == st
    ensures f.Response? ==> r.messages == st.messages && r.buffer == st.buffer && r.typing == st.typing
    ensures f.Response? ==> (r.connected <==> st.connected || f.ok == Some(true))
  {
    match f
    case Response(ok) => if ok == Some(true) then st.(connected := true) else st
    case Event(name, payload) =>
      if name == "chat" && payload.Some? then OnChatEvent(st, payload.value, now) else st
    case _ => st
  }

  // ----- shape of the message list across events -----

  /** One step's effect on the list: unchanged, one message appended, or the
      last message replaced. */
  predicate AppendOrReplaceLast(before: seq<Message>, after: seq<Message>) {
    || after == before
    || (|after| == |before| + 1 && after[..|before|] == before)
    || (|before| > 0 && |after| == |before| && after[..|before| - 1] == before[..|before| - 1])
  }

  /** Every message but the last one of `before` is still in place in `after`. */
  predicate KeepsHistory(before: seq<Message>, after: seq<Message>) {
    && |before| <= |after|
    && (|before| > 0 ==> after[..|before| - 1] == before[..|before| - 1])
  }

  /** A single frame only ever appends one message or replaces the last. */
  lemma StepShape(st: ChatState, f: Frame, now: int)
    ensures AppendOrReplaceLast(st.messages, Step(st, f, now).messages)
  {
  }

  /** The frames of a session, each with the clock reading at its arrival. */
  function Run(st: ChatState, frames: seq<(Frame, int)>): ChatState
    decreases |frames|
  {
    if |frames| == 0 then st else Run(Step(st, frames[0].0, frames[0].1), frames[1..])
  }

  /** Over any sequence of frames no message before the last one ever
      changes, and the list never shrinks. */
  lemma {:induction false} RunKeepsHistory(st: ChatState, frames: seq<(Frame, int)>)
    ensures KeepsHistory(st.messages, Run(st, frames).messages)
    decreases |frames|
  {
    if |frames| > 0 {
      var mid := Step(st, frames[0].0, frames[0].1);
      StepShape(st, frames[0].0, frames[0].1);
      RunKeepsHistory(mid, frames[1..]);
      var a, b, c := st.messages, mid.messages, Run(mid, frames[1..]).messages;
      if |a| > 0 {
        assert b[..|a| - 1] == a[..|a| - 1];
        assert c[..|a| - 1] == a[..|a| - 1] by {
          if |b| > 0 {
            assert c[..|b| - 1] == b[..|b| - 1];
            assert c[..|a| - 1] == c[..|b| - 1][..|a| - 1];
          }
        }
      }
    }
  }

  /** A delta event carrying plain text. */
  function TextDelta(t: string): ChatEvent {
    ChatEvent(Delta, Str(t), "")
  }

  function Concat(ts: seq<string>): string
    decreases |ts|
  {
    if |ts| == 0 then "" else Concat(ts[..|ts| - 1]) + ts[|ts| - 1]
  }

  /** Feeds the deltas of one turn, in order, at clock readings `at`. */
  function Deltas(st: ChatState, ts: seq<string>, at: int): ChatState
    decreases |ts|
  {
    if |ts| == 0 then st else OnChatEvent(Deltas(st, ts[..|ts| - 1], at), TextDelta(ts[|ts| - 1]), at)
  }

  /** Deltas `t1 .. tn` (non-empty) after a turn starts with an empty buffer
      and no streaming message leave exactly one new message: a streaming
      bot message reading `t1 + .. + tn`. */
  lemma {:induction false} DeltasConcatenate(st: ChatState, ts: seq<string>, at: int)
    requires st.buffer == "" && !LastStreaming(st.messages)
    requires |ts| > 0 && forall k :: 0 <= k < |ts| ==> ts[k] != ""
    ensures var r := Deltas(st, ts, at);
      && r.buffer == Concat(ts)
      && |r.messages| == |st.messages| + 1
      && r.messages[..|st.messages|] == st.messages
      && r.messages[|st.messages|] == Message(BotMsg(at), Bot, Concat(ts), true)
    decreases |ts|
  {
    var init := ts[..|ts| - 1];
    if |init| == 0 {
      assert Deltas(st, init, at) == st;
      assert Concat(ts) == Concat(init) + ts[0];
    } else {
      DeltasConcatenate(st, init, at);
      var mid := Deltas(st, init, at);
      assert LastStreaming(mid.messages);
      var r := OnChatEvent(mid, TextDelta(ts[|ts| - 1]), at);
      assert r.messages[..|st.messages|] == mid.messages[..|st.messages|];
    }
  }

  /** A final event's own non-empty content wins over the buffer; without
      usable content the buffer becomes the message. */
  lemma FinalOverridesBuffer(st: ChatState, e: ChatEvent, now: int)
    requires e.state == Final && LastStreaming(st.messages)
    ensures var r := OnChatEvent(st, e, now);
      && var last := r.messages[|r.messages| - 1];
      && !last.streaming
      && (Truthy(e.content) && ExtractText(e.content) != "" ==> last.text == ExtractText(e.content))
      && (!Truthy(e.content) || ExtractText(e.content) == "" ==> last.text == st.buffer)
  {
  }

  /** An error leaves a half-streamed message streaming: the next delta then
      opens a second streaming message rather than continuing the first. */
  lemma ErrorLeavesPartialStreaming(st: ChatState, e: ChatEvent, t: string, now: int, later: int)
    requires LastStreaming(st.messages) && e.state == Error && t != ""
    ensures var r := OnChatEvent(OnChatEvent(st, e, now), TextDelta(t), later);
      && r.messages[|st.messages| - 1] == st.messages[|st.messages| - 1]
      && r.messages[|st.messages| - 1].streaming
      && r.messages[|r.messages| - 1] == Message(BotMsg(later), Bot, t, true)
  {
    var mid := OnChatEvent(st, e, now);
    assert !LastStreaming(mid.messages);
  }

  // ----- outbound requests and the send gate -----

  /** `req-${++counter}-${Date.now()}`. */
  datatype ReqId = ReqId(seqNo: nat, at: int)

  datatype Request =
    | Connect(id: ReqId, minProtocol: int, maxProtocol: int,
              clientId: string, version: string, platform: string, mode: string,
              role: string, scopes: seq<string>, token: string, locale: string)
    | ChatSend(id: ReqId, sessionKey: string, message: string, idempotencyKey: string)

  /** `nextId()`: bumps the counter and stamps the id with it. */
  function NextId(counter: nat, now: int): (r: (nat, ReqId))
    ensures r.0 > counter && r.1.seqNo == r.0
  {
    (counter + 1, ReqId(counter + 1, now))
  }

  /** Ids issued one after another, each call at its own clock reading. */
  function IssueIds(counter: nat, clock: seq<int>): seq<ReqId>
    decreases |clock|
  {
    if |clock| == 0 then []
    else var (c, id) := NextId(counter, clock[0]); [id] + IssueIds(c, clock[1..])
  }

  /** Every id of a session is unique even when the clock does not advance. */
  lemma {:induction false} IssuedIdsDistinct(counter: nat, clock: seq<int>)
    ensures var ids := IssueIds(counter, clock);
      && |ids| == |clock|
      && (forall k :: 0 <= k < |ids| ==> ids[k].seqNo == counter + k + 1)
      && (forall i, j :: 0 <= i < j < |ids| ==> ids[i] != ids[j])
    decreases |clock|
  {
    if |clock| > 0 {
      IssuedIdsDistinct(counter + 1, clock[1..]);
      var ids := IssueIds(counter, clock);
      assert forall k :: 1 <= k < |ids| ==> ids[k] == IssueIds(counter + 1, clock[1..])[k - 1];
    }
  }

  const DefaultLocale: string := "en-US"

  /** The handshake sent on socket open; the locale falls back to `en-US`. */
  function ConnectRequest(id: ReqId, token: string, language: string): (r: Request)
    ensures r.Connect? && r.minProtocol == 3 && r.maxProtocol == 3
    ensures r.locale != ""
    ensures language != "" ==> r.locale == language
  {
    Connect(id, 3, 3, "webchat", "1.0.0", "web", "webchat", "operator",
            ["operator.read", "operator.write"], token,
            if language != "" then language else DefaultLocale)
  }

  const SessionKey: string := "agent:main:main"

  /** Everything `sendMessage` touches. */
  datatype Widget = Widget(chat: ChatState, quota: MessageLimit.DayCount, counter: nat)

  /** `sendMessage(text)`. `hasBot` is whether the bot lookup succeeded,
      `socketOpen` the socket's ready state, `idempotencyKey` the
      time-and-random key. Returns the new widget and the frame sent, if any. */
  function SendMessage(w: Widget, text: string, hasBot: bool, today: string, now: int,
                       socketOpen: bool, idempotencyKey: string): (r: (Widget, Option<Request>))
    // the gate: blank input, no bot, a reply in progress or a spent quota do nothing
    ensures IsBlank(text) || !hasBot || w.chat.typing || MessageLimit.IsLimited(w.quota) ==> r == (w, None)
    // otherwise exactly one user message with the trimmed text, one quota tick, typing on, buffer empty
    ensures !(IsBlank(text) || !hasBot || w.chat.typing || MessageLimit.IsLimited(w.quota)) ==>
      && r.0.chat.messages == w.chat.messages + [Message(UserMsg(now), User, Trim(text), false)]
      && r.0.quota == MessageLimit.Increment(w.quota, today)
      && r.0.chat.typing && r.0.chat.buffer == ""
      && r.0.chat.connected == w.chat.connected
      && (r.1.Some? <==> w.chat.connected && socketOpen)
      && (r.1.Some? ==> r.1.value == ChatSend(ReqId(w.counter + 1, now), SessionKey, Trim(text), idempotencyKey))
  {
    if IsBlank(text) || !hasBot || w.chat.typing || MessageLimit.IsLimited(w.quota) then (w, None)
    else
      var msg := Message(UserMsg(now), User, Trim(text), false);
      var chat := w.chat.(messages := w.chat.messages + [msg], typing := true, buffer := "");
      var quota := MessageLimit.Increment(w.quota, today);
      if w.chat.connected && socketOpen then
        var (counter, id) := NextId(w.counter, now);
        (Widget(chat, quota, counter), Some(ChatSend(id, SessionKey, Trim(text), idempotencyKey)))
      else
        (Widget(chat, quota, w.counter), None)
  }

  /** Single flight: once a turn is sent, a second send is refused until a
      final or error event clears the typing flag. */
  lemma SingleFlight(w: Widget, t1: string, t2: string, hasBot: bool, today: string,
                     now1: int, now2: int, socketOpen: bool, k1: string, k2: string)
    requires !IsBlank(t1) && hasBot && !w.chat.typing && !MessageLimit.IsLimited(w.quota)
    ensures var w1 := SendMessage(w, t1, hasBot, today, now1, socketOpen, k1).0;
      SendMessage(w1, t2, hasBot, today, now2, socketOpen, k2) == (w1, None)
  {
  }

  /** A terminal event re-opens the gate for the next turn. */
  lemma TerminalEventReopensGate(st: ChatState, e: ChatEvent, now: int)
    requires e.state == Final || e.state == Error
    ensures !OnChatEvent(st, e, now).typing
  {
  }
}

=== FILE: claims.dfy ===
/**
  The token-claim routes: five social tasks, each recorded once per user,
  and a one-per-user reservation of 100 tokens under a global cap of
  10,000 reservations. Each handler is a transition `(tables, request) ->
  (tables, response)`; the caller's identity is the user id a valid bearer
  token carries, or None.
*/
module Claims {
  import opened Text
  import opened Wrappers
  import opened Db

  const ClaimAmount: int := 100
  const MaxClaims: int := 10000

  datatype TaskDef = TaskDef(id: string, title: string, reward: int)

  /** `TASKS`, in the order every response lists them. */
  const Tasks: seq<TaskDef> := [
    TaskDef("wallet", "Connect wallet", 10),
    TaskDef("bot", "Create a bot", 40),
    TaskDef("telegram", "Join Telegram", 10),
    TaskDef("x_follow", "Follow on X", 10),
    TaskDef("tweet", "Tweet your bot link", 30)
  ]

  /** `TASK_IDS`. */
  const TaskIds: seq<string> := ["wallet", "bot", "telegram", "x_follow", "tweet"]

  /** `TASK_IDS` is `TASKS.map(t => t.id)`. */
  lemma TaskIdsMatchTasks()
    ensures |TaskIds| == |Tasks| && forall k :: 0 <= k < |Tasks| ==> TaskIds[k] == Tasks[k].id
  {
  }

  function SumRewards(ts: seq<TaskDef>): int
    decreases |ts|
  {
    if |ts| == 0 then 0 else ts[0].reward + SumRewards(ts[1..])
  }

  /** The five rewards add up to the claim amount. */
  lemma RewardsSumToClaimAmount()
    ensures SumRewards(Tasks) == ClaimAmount
  {
    assert Tasks[1..][1..][1..][1..][1..] == [];
  }

  /** The task ids are pairwise distinct, so each names one task. */
  lemma TaskIdsDistinct()
    ensures forall i, j :: 0 <= i < j < |Tasks| ==> Tasks[i].id != Tasks[j].id
  {
  }

  /** `spots remaining`: `Math.max(0, MAX_CLAIMS - total)`. */
  function SpotsLeft(t: Tables): (n: int)
    ensures n >= 0
    ensures TotalClaimed(t.claims) <= MaxClaims ==> n == MaxClaims - TotalClaimed(t.claims)
    ensures TotalClaimed(t.claims) >= MaxClaims ==> n == 0
  {
    if MaxClaims - TotalClaimed(t.claims) > 0 then MaxClaims - TotalClaimed(t.claims) else 0
  }

  /** One entry of `getUserTasks`: a stored empty proof reads back as null. */
  datatype TaskView = TaskView(def: TaskDef, completed: bool, proof: Option<string>)

  function StoredProof(t: Tables, userId: string, task: string): Option<string> {
    if (userId, task) in t.claimTasks && t.claimTasks[(userId, task)].proof.Some?
       && t.claimTasks[(userId, task)].proof.value != ""
    then t.claimTasks[(userId, task)].proof
    else None
  }

  /** `getUserTasks(userId)`: every task, in `TASKS` order, completed exactly
      when a row for it exists. */
  function UserTasks(t: Tables, userId: string): (r: seq<TaskView>)
    ensures |r| == |Tasks|
    ensures forall k :: 0 <= k < |Tasks| ==>
      && r[k].def == Tasks[k]
      && (r[k].completed <==> (userId, Tasks[k].id) in t.claimTasks)
      && (r[k].proof.Some? ==> r[k].completed && r[k].proof.value != "")
  {
    seq(|Tasks|, k requires 0 <= k < |Tasks| =>
      TaskView(Tasks[k], (userId, Tasks[k].id) in t.claimTasks, StoredProof(t, userId, Tasks[k].id)))
  }

  /** `tasks.filter((t) => t.completed).length`. */
  function CountCompleted(vs: seq<TaskView>): (n: nat)
    ensures n <= |vs|
    ensures n == |vs| <==> forall k :: 0 <= k < |vs| ==> vs[k].completed
    ensures n + |MissingIds(vs)| == |vs|
    decreases |vs|
  {
    if |vs| == 0 then 0 else (if vs[0].completed then 1 else 0) + CountCompleted(vs[1..])
  }

  /** The ids of the tasks not yet done, in `TASKS` order. */
  function MissingIds(vs: seq<TaskView>): (ids: seq<string>)
    ensures |ids| <= |vs|
    ensures |ids| == 0 <==> forall k :: 0 <= k < |vs| ==> vs[k].completed
    ensures forall k :: 0 <= k < |vs| && !vs[k].completed ==> vs[k].def.id in ids
    ensures forall id :: id in ids ==> exists k :: 0 <= k < |vs| && !vs[k].completed && vs[k].def.id == id
    decreases |vs|
  {
    if |vs| == 0 then []
    else (if vs[0].completed then [] else [vs[0].def.id]) + MissingIds(vs[1..])
  }

  /** Counting splits over a split of the list, and one entry counts exactly
      when it is completed: the count is the number of completed entries. */
  lemma {:induction false} CountCompletedAppend(a: seq<TaskView>, b: seq<TaskView>)
    ensures CountCompleted(a + b) == CountCompleted(a) + CountCompleted(b)
    ensures forall v :: CountCompleted([v]) == if v.completed then 1 else 0
    decreases |a|
  {
    forall v ensures CountCompleted([v]) == if v.completed then 1 else 0 {
      assert [v][1..] == [];
    }
    if |a| == 0 {
      assert a + b == b;
    } else {
      assert (a + b)[1..] == a[1..] + b;
      CountCompletedAppend(a[1..], b);
    }
  }

  /** The missing list keeps the order of the entries: it splits over a split
      of the list, and one entry contributes its id exactly when incomplete. */
  lemma {:induction false} MissingIdsAppend(a: seq<TaskView>, b: seq<TaskView>)
    ensures MissingIds(a + b) == MissingIds(a) + MissingIds(b)
    ensures forall v :: MissingIds([v]) == if v.completed then [] else [v.def.id]
    decreases |a|
  {
    forall v ensures MissingIds([v]) == if v.completed then [] else [v.def.id] {
      assert [v][1..] == [];
    }
    if |a| == 0 {
      assert a + b == b;
    } else {
      assert (a + b)[1..] == a[1..] + b;
      MissingIdsAppend(a[1..], b);
    }
  }

  /** Entries with distinct ids give a missing list without repeats. */
  lemma {:induction false} MissingIdsDistinct(vs: seq<TaskView>)
    requires forall i, j :: 0 <= i < j < |vs| ==> vs[i].def.id != vs[j].def.id
    ensures forall i, j :: 0 <= i < j < |MissingIds(vs)| ==> MissingIds(vs)[i] != MissingIds(vs)[j]
    decreases |vs|
  {
    if |vs| > 0 {
      var tail := vs[1..];
      forall i, j | 0 <= i < j < |tail| ensures tail[i].def.id != tail[j].def.id {
        assert tail[i] == vs[i + 1] && tail[j] == vs[j + 1];
      }
      MissingIdsDistinct(tail);
      var rest := MissingIds(tail);
      if !vs[0].completed {
        forall k | 0 <= k < |tail| ensures tail[k].def.id != vs[0].def.id {
          assert tail[k] == vs[k + 1];
        }
        assert vs[0].def.id !in rest;
        var ids := [vs[0].def.id] + rest;
        assert MissingIds(vs) == ids;
        forall i, j | 0 <= i < j < |ids| ensures ids[i] != ids[j] {
          if i == 0 {
            assert ids[j] == rest[j - 1];
          } else {
            assert ids[i] == rest[i - 1] && ids[j] == rest[j - 1];
          }
        }
      } else {
        assert MissingIds(vs) == rest;
      }
    }
  }

  /** The 403 body of `/reserve` names each missing task once. */
  lemma ReserveListsEachMissingTaskOnce(t: Tables, u: string)
    ensures var ids := MissingIds(UserTasks(t, u));
      forall i, j :: 0 <= i < j < |ids| ==> ids[i] != ids[j]
  {
    var vs := UserTasks(t, u);
    TaskIdsDistinct();
    MissingIdsDistinct(vs);
  }

  /** All five task rows exist for the user. */
  predicate AllTasksDone(t: Tables, userId: string) {
    forall k :: 0 <= k < |Tasks| ==> (userId, Tasks[k].id) in t.claimTasks
  }

  datatype Response =
    | Unauthorized   // 401
    | InvalidTask   // 400
    | NeedsBot   // 403
    | InvalidWallet   // 400
    | InvalidTweetUrl   // 400
    | TaskAlreadyCompleted   // 409
    | TaskCompleted(task: string, reward: int, tasks: seq<TaskView>, completedCount: nat, allDone: bool)
    | TasksMissing(missing: seq<string>)   // 403
    | WalletNotFound   // 400
    | AlreadyReserved   // 409
    | ClaimsExhausted   // 410
    | ClaimReserved(claim: ClaimRow)
    | StatsReport(totalClaimed: nat, maxClaims: int, remaining: int, claimAmount: int)
    | StatusReport(eligible: bool, hasBots: bool, claimed: bool, claimRow: Option<ClaimRow>,
                   spotsRemaining: int, totalClaimed: nat, tasks: seq<TaskView>, completedCount: nat)

  /** The HTTP status code of a response. */
  function Code(r: Response): int {
    match r
    case Unauthorized => 401
    case InvalidTask => 400
    case NeedsBot => 403
    case InvalidWallet => 400
    case InvalidTweetUrl => 400
    case TaskAlreadyCompleted => 409
    case TasksMissing(_) => 403
    case WalletNotFound => 400
    case AlreadyReserved => 409
    case ClaimsExhausted => 410
    case _ => 200
  }

  /** `GET /stats`. */
  function Stats(t: Tables): (r: Response)
    ensures r.StatsReport? && r.remaining >= 0 && r.claimAmount == ClaimAmount && r.maxClaims == MaxClaims
    ensures r.totalClaimed + r.remaining >= MaxClaims
    ensures r.totalClaimed == TotalClaimed(t.claims)
    ensures r.remaining == if r.totalClaimed >= MaxClaims then 0 else MaxClaims - r.totalClaimed
  {
    StatsReport(TotalClaimed(t.claims), MaxClaims, SpotsLeft(t), ClaimAmount)
  }

  /** `GET /status`. */
  function Status(t: Tables, caller: Option<string>): (r: Response)
    ensures caller.None? <==> r == Unauthorized
    ensures caller.Some? ==>
      && r.StatusReport?
      && (r.eligible <==> AllTasksDone(t, caller.value) && caller.value !in t.claims && SpotsLeft(t) > 0)
      && (r.claimed <==> caller.value in t.claims)
      && (r.claimRow.Some? <==> r.claimed)
      && r.claimRow == (if caller.value in t.claims then Some(t.claims[caller.value]) else None)
      && (r.hasBots <==> BotCount(t.bots, caller.value) > 0)
      && r.spotsRemaining >= 0
      && r.totalClaimed == TotalClaimed(t.claims)
      && r.spotsRemaining == SpotsLeft(t)
      && r.tasks == UserTasks(t, caller.value)
      && r.completedCount == CountCompleted(r.tasks)
  {
    match caller
    case None => Unauthorized
    case Some(u) =>
      var tasks := UserTasks(t, u);
      var done := CountCompleted(tasks);
      var claim := if u in t.claims then Some(t.claims[u]) else None;
      StatusReport(done == |Tasks| && claim.None? && SpotsLeft(t) > 0, BotCount(t.bots, u) > 0,
                   claim.Some?, claim, SpotsLeft(t), TotalClaimed(t.claims), tasks, done)
  }

  /** The wallet task's proof rule: a string of 32 to 44 characters. */
  predicate ValidWalletProof(proof: Option<string>) {
    proof.Some? && proof.value != "" && 32 <= |proof.value| <= 44
  }

  /** The tweet task's proof rule: a link on x.com or twitter.com. */
  predicate ValidTweetProof(proof: Option<string>) {
    proof.Some? && proof.value != "" && (Contains(proof.value, "x.com/") || Contains(proof.value, "twitter.com/"))
  }

  /** The reward of a known task id. */
  function RewardOf(task: string): int {
    if task == "wallet" then 10 else if task == "bot" then 40 else if task == "tweet" then 30 else 10
  }

  /** `POST /task`. `proof` is None when absent or null. */
  function CompleteTask(t: Tables, caller: Option<string>, task: string, proof: Option<string>): (r: (Tables, Response))
    // every refusal leaves the tables as they were
    ensures !r.1.TaskCompleted? ==> r.0 == t
    ensures caller.None? ==> r.1 == Unauthorized
    ensures caller.Some? && task !in TaskIds ==> r.1 == InvalidTask
    ensures caller.Some? && task == "bot" && BotCount(t.bots, caller.value) == 0 ==> r.1 == NeedsBot
    ensures caller.Some? && task == "wallet" && !ValidWalletProof(proof) ==> r.1 == InvalidWallet
    ensures caller.Some? && task == "tweet" && !ValidTweetProof(proof) ==> r.1 == InvalidTweetUrl
    ensures (&& caller.Some? && task in TaskIds && (caller.value, task) in t.claimTasks
             && r.1 != NeedsBot && r.1 != InvalidWallet && r.1 != InvalidTweetUrl) ==> r.1 == TaskAlreadyCompleted
    // success inserts exactly the one row, carrying the task's reward
    ensures r.1.TaskCompleted? ==>
      && caller.Some? && task in TaskIds
      && (caller.value, task) !in t.claimTasks
      && r.0 == t.(claimTasks := t.claimTasks[(caller.value, task) := TaskRow(RewardOf(task), if proof == Some("") then None else proof)])
      && r.1.reward == RewardOf(task)
      && r.1.tasks == UserTasks(r.0, caller.value)
      && r.1.completedCount == CountCompleted(r.1.tasks)
      && (r.1.allDone <==> AllTasksDone(r.0, caller.value))
    // a request that passes every check is accepted
    ensures (&& caller.Some? && task in TaskIds
             && (task == "bot" ==> BotCount(t.bots, caller.value) > 0)
             && (task == "wallet" ==> ValidWalletProof(proof))
             && (task == "tweet" ==> ValidTweetProof(proof))
             && (caller.value, task) !in t.claimTasks) ==> r.1.TaskCompleted?
  {
    match caller
    case None => (t, Unauthorized)
    case Some(u) =>
      if task !in TaskIds then (t, InvalidTask)
      else if task == "bot" && BotCount(t.bots, u) == 0 then (t, NeedsBot)
      else if task == "wallet" && !ValidWalletProof(proof) then (t, InvalidWallet)
      else if task == "tweet" && !ValidTweetProof(proof) then (t, InvalidTweetUrl)
      else if (u, task) in t.claimTasks then (t, TaskAlreadyCompleted)
      else
        var row := TaskRow(RewardOf(task), if proof == Some("") then None else proof);
        var t' := t.(claimTasks := t.claimTasks[(u, task) := row]);
        var tasks := UserTasks(t', u);
        var done := CountCompleted(tasks);
        (t', TaskCompleted(task, RewardOf(task), tasks, done, done == |Tasks|))
  }

  /** The reward `RewardOf` gives is the one `TASKS` lists for that id. */
  lemma RewardOfMatchesTasks(k: int)
    requires 0 <= k < |Tasks|
    ensures RewardOf(Tasks[k].id) == Tasks[k].reward
  {
  }

  /** `POST /reserve`. */
  function Reserve(t: Tables, caller: Option<string>): (r: (Tables, Response))
    ensures !r.1.ClaimReserved? ==> r.0 == t
    ensures caller.None? ==> r.1 == Unauthorized
    // the checks, in order
    ensures caller.Some? && !AllTasksDone(t, caller.value) ==>
      r.1 == TasksMissing(MissingIds(UserTasks(t, caller.value)))
    ensures caller.Some? && AllTasksDone(t, caller.value) && StoredProof(t, caller.value, "wallet").None? ==>
      r.1 == WalletNotFound
    ensures (&& caller.Some? && AllTasksDone(t, caller.value) && StoredProof(t, caller.value, "wallet").Some?
             && caller.value in t.claims) ==> r.1 == AlreadyReserved
    ensures (&& caller.Some? && AllTasksDone(t, caller.value) && StoredProof(t, caller.value, "wallet").Some?
             && caller.value !in t.claims && TotalClaimed(t.claims) >= MaxClaims) ==> r.1 == ClaimsExhausted
    // success: one reserved claim for 100 tokens at the wallet task's address
    ensures r.1.ClaimReserved? ==>
      && caller.Some? && caller.value !in t.claims
      && TotalClaimed(t.claims) < MaxClaims
      && r.1.claim == ClaimRow(StoredProof(t, caller.value, "wallet").value, ClaimAmount, "reserved")
      && r.0 == t.(claims := t.claims[caller.value := r.1.claim])
  {
    match caller
    case None => (t, Unauthorized)
    case Some(u) =>
      var tasks := UserTasks(t, u);
      var missing := MissingIds(tasks);
      if |missing| > 0 then (t, TasksMissing(missing))
      else
        var wallet := StoredProof(t, u, "wallet");
        if wallet.None? then (t, WalletNotFound)
        else if u in t.claims then (t, AlreadyReserved)
        else if TotalClaimed(t.claims) >= MaxClaims then (t, ClaimsExhausted)
        else
          var claim := ClaimRow(wallet.value, ClaimAmount, "reserved");
          (t.(claims := t.claims[u := claim]), ClaimReserved(claim))
  }

  // ----- invariants the handlers keep -----

  /** Every stored wallet task carries an address of valid length. */
  predicate WalletProofsValid(t: Tables) {
    forall key :: key in t.claimTasks && key.1 == "wallet" ==> ValidWalletProof(t.claimTasks[key].proof)
  }

  /** Every claim belongs to a user who finished all tasks, at that user's
      wallet address. */
  predicate ClaimsBacked(t: Tables) {
    forall u :: u in t.claims ==>
      AllTasksDone(t, u) && StoredProof(t, u, "wallet") == Some(t.claims[u].walletAddress)
  }

  /** The global cap holds. */
  predicate UnderCap(t: Tables) {
    TotalClaimed(t.claims) <= MaxClaims
  }

  predicate Good(t: Tables) {
    WalletProofsValid(t) && ClaimsBacked(t) && UnderCap(t)
  }

  /** Completing a task keeps every invariant. */
  lemma CompleteTaskPreserves(t: Tables, caller: Option<string>, task: string, proof: Option<string>)
    requires Good(t)
    ensures Good(CompleteTask(t, caller, task, proof).0)
  {
    var r := CompleteTask(t, caller, task, proof);
    if r.1.TaskCompleted? {
      var u := caller.value;
      var t' := r.0;
      assert t'.claims == t.claims;
      forall v | v in t'.claims
        ensures AllTasksDone(t', v) && StoredProof(t', v, "wallet") == Some(t'.claims[v].walletAddress)
      {
        assert StoredProof(t, v, "wallet") == Some(t.claims[v].walletAddress);
        assert (v, "wallet") in t.claimTasks;
        assert (v, "wallet") != (u, task);
      }
    }
  }

  /** A new reservation adds exactly one to the count of claims. */
  lemma TotalClaimedInsert(claims: map<string, ClaimRow>, u: string, c: ClaimRow)
    requires u !in claims && c.status == "reserved"
    ensures TotalClaimed(claims[u := c]) == TotalClaimed(claims) + 1
  {
    var before := set v | v in claims && (claims[v].status == "reserved" || claims[v].status == "distributed");
    var m := claims[u := c];
    var after := set v | v in m && (m[v].status == "reserved" || m[v].status == "distributed");
    assert after == before + {u};
    assert u !in before;
  }

  /** Reserving keeps every invariant; in particular the cap is never exceeded. */
  lemma ReservePreserves(t: Tables, caller: Option<string>)
    requires Good(t)
    ensures Good(Reserve(t, caller).0)
  {
    var r := Reserve(t, caller);
    if r.1.ClaimReserved? {
      TotalClaimedInsert(t.claims, caller.value, r.1.claim);
      var u := caller.value;
      assert MissingIds(UserTasks(t, u)) == [];
      assert AllTasksDone(t, u) by {
        forall k | 0 <= k < |Tasks| ensures (u, Tasks[k].id) in t.claimTasks {
          assert UserTasks(t, u)[k].completed;
        }
      }
    }
  }

  /** In a store the handlers built, a user reported eligible can reserve. */
  lemma EligibleCanReserve(t: Tables, u: string)
    requires WalletProofsValid(t)
    requires Status(t, Some(u)).eligible
    ensures Reserve(t, Some(u)).1.ClaimReserved?
  {
    assert (u, "wallet") in t.claimTasks by {
      assert Tasks[0].id == "wallet";
    }
    assert ValidWalletProof(t.claimTasks[(u, "wallet")].proof);
  }

  /** With the stored invariants, the "wallet address not found" refusal of
      `/reserve` can never be reached. */
  lemma WalletNotFoundUnreachable(t: Tables, caller: Option<string>)
    requires WalletProofsValid(t)
    ensures Reserve(t, caller).1 != WalletNotFound
  {
    if caller.Some? && AllTasksDone(t, caller.value) {
      assert Tasks[0].id == "wallet";
      assert ValidWalletProof(t.claimTasks[(caller.value, "wallet")].proof);
    }
  }

  /** Completing the same task twice: the second call answers 409 and
      changes nothing. */
  lemma CompleteTaskTwice(t: Tables, u: string, task: string, proof: Option<string>, proof2: Option<string>)
    requires CompleteTask(t, Some(u), task, proof).1.TaskCompleted?
    requires task == "wallet" ==> ValidWalletProof(proof2)
    requires task == "tweet" ==> ValidTweetProof(proof2)
    ensures var t1 := CompleteTask(t, Some(u), task, proof).0;
      CompleteTask(t1, Some(u), task, proof2) == (t1, TaskAlreadyCompleted)
  {
    var t1 := CompleteTask(t, Some(u), task, proof).0;
    assert t1.bots == t.bots;
  }
}

=== FILE: dashboard.dfy ===
/**
  The dashboard's decisions: the bot card's status colour and label, the
  "Getting Started" checklist, the suggestion list, and which claim banner
  to show, including how a reserved wallet address is shortened.
*/
module Dashboard {
  import opened Wrappers
  import opened Db
  import opened BotList
  import Claims
  import Onboarding

  // ----- status badge -----

  const OfflineColor: string := "bg-slate-600"

  /** `statusColors[bot.status] || statusColors.offline`. */
  function StatusColor(status: string): (r: string)
    ensures status !in {"online", "starting", "draft"} <==> r == OfflineColor
  {
    if status == "online" then "bg-emerald-400"
    else if status == "starting" then "bg-amber-400 animate-pulse"
    else if status == "draft" then "bg-amber-400"
    else OfflineColor
  }

  /** `statusLabels[bot.status] || bot.status`. */
  function StatusLabel(status: string): (r: string)
    ensures status !in {"online", "offline", "starting", "draft"} ==> r == status
    ensures status in {"online", "offline", "starting", "draft"} ==> r != status
    ensures status == "online" ==> r == "Online \U{2014} 24/7"
    ensures status == "offline" ==> r == "Offline"
    ensures status == "starting" ==> r == "Starting..."
    ensures status == "draft" ==> r == "Draft \U{2014} Not Active"
  {
    if status == "online" then "Online \U{2014} 24/7"
    else if status == "offline" then "Offline"
    else if status == "starting" then "Starting..."
    else if status == "draft" then "Draft \U{2014} Not Active"
    else status
  }

  /** The badge is grey exactly for "offline" and for the statuses the
      label map does not know, which are shown as they are. */
  lemma BadgeColourMatchesLabel(status: string)
    ensures StatusColor(status) == OfflineColor <==> status == "offline" || StatusLabel(status) == status
  {
  }

  // ----- getting started -----

  /** A prompt the checklist and suggestions treat as not customised:
      empty, or the wizard's default. */
  predicate DefaultPrompt(prompt: string) {
    prompt == "" || prompt == Onboarding.DefaultSystemPrompt
  }

  predicate SomeCustomPrompt(bots: seq<Bot>) {
    exists k | 0 <= k < |bots| :: !DefaultPrompt(bots[k].systemPrompt)
  }

  /** The four checklist items, in display order. */
  datatype Checklist = Checklist(hasBots: bool, hasCustomPrompt: bool, hasActivated: bool, hasMultipleBots: bool)

  function Flags(bots: seq<Bot>, isAuthenticated: bool): Checklist {
    Checklist(|bots| > 0, SomeCustomPrompt(bots), isAuthenticated, |bots| > 1)
  }

  function B2N(b: bool): nat { if b then 1 else 0 }

  /** The items in display order. */
  function Items(c: Checklist): seq<bool> {
    [c.hasBots, c.hasCustomPrompt, c.hasActivated, c.hasMultipleBots]
  }

  /** `steps.filter((s) => s.done).length`. */
  function CompletedCount(c: Checklist): (n: nat)
    ensures n == multiset(Items(c))[true]
    ensures n <= 4
    ensures n == 4 <==> c.hasBots && c.hasCustomPrompt && c.hasActivated && c.hasMultipleBots
    ensures n == 0 <==> !c.hasBots && !c.hasCustomPrompt && !c.hasActivated && !c.hasMultipleBots
  {
    B2N(c.hasBots) + B2N(c.hasCustomPrompt) + B2N(c.hasActivated) + B2N(c.hasMultipleBots)
  }

  /** `GettingStarted`: the checklist, or None once every item is done. */
  function GettingStarted(bots: seq<Bot>, isAuthenticated: bool): (r: Option<Checklist>)
    ensures r.None? <==> |bots| > 1 && SomeCustomPrompt(bots) && isAuthenticated
    ensures r.Some? ==> r.value == Flags(bots, isAuthenticated) && CompletedCount(r.value) < 4
    ensures r.Some? ==> r.value.hasBots == (|bots| > 0) && r.value.hasActivated == isAuthenticated
                        && r.value.hasMultipleBots == (|bots| > 1) && r.value.hasCustomPrompt == SomeCustomPrompt(bots)
  {
    var c := Flags(bots, isAuthenticated);
    if CompletedCount(c) == 4 then None else Some(c)
  }

  // ----- suggestions -----

  datatype Suggestion =
    | ActivateDraft(botName: string)   // "Activate", /activate
    | EditPrompt(botName: string)   // "Edit Prompt", /settings
    | ShareBot   // "Go to Settings", /settings
    | SecondBot   // "New Bot", /onboarding

  predicate IsDraftNamed(b: Bot, n: string) {
    b.status == "draft" && b.name == n
  }

  predicate HasDefaultPromptNamed(b: Bot, n: string) {
    DefaultPrompt(b.systemPrompt) && b.name == n
  }

  /** The per-bot suggestions, in bot order. */
  function PerBot(bots: seq<Bot>): (r: seq<Suggestion>)
    ensures |r| <= 2 * |bots|
    ensures forall s :: s in r ==> s.ActivateDraft? || s.EditPrompt?
    ensures forall n :: ActivateDraft(n) in r <==> exists k | 0 <= k < |bots| :: IsDraftNamed(bots[k], n)
    ensures forall n :: EditPrompt(n) in r <==> exists k | 0 <= k < |bots| :: HasDefaultPromptNamed(bots[k], n)
    decreases |bots|
  {
    if |bots| == 0 then []
    else
      var b := bots[0];
      var rest := PerBot(bots[1..]);
      assert forall k :: 1 <= k < |bots| ==> bots[k] == bots[1..][k - 1];
      assert forall k :: 0 <= k < |bots| - 1 ==> bots[1..][k] == bots[k + 1];
      (if b.status == "draft" then [ActivateDraft(b.name)] else [])
      + (if DefaultPrompt(b.systemPrompt) then [EditPrompt(b.name)] else [])
      + rest
  }

  /** The per-bot pass distributes over a split of the list. */
  lemma {:induction false} PerBotAppend(a: seq<Bot>, b: seq<Bot>)
    ensures PerBot(a + b) == PerBot(a) + PerBot(b)
    decreases |a|
  {
    if |a| == 0 {
      assert a + b == b;
    } else {
      assert (a + b)[1..] == a[1..] + b;
      PerBotAppend(a[1..], b);
    }
  }

  predicate SomeLive(bots: seq<Bot>) {
    exists k | 0 <= k < |bots| :: bots[k].status != "draft"
  }

  /** The full list before truncation. */
  function Suggestions(bots: seq<Bot>): (r: seq<Suggestion>)
    ensures ShareBot in r <==> SomeLive(bots)
    ensures SecondBot in r <==> |bots| == 1
    ensures |r| > 0 && r[|r| - 1] == SecondBot <==> |bots| == 1
    ensures |PerBot(bots)| <= |r| && r[..|PerBot(bots)|] == PerBot(bots)
    ensures SomeLive(bots) ==> r[|PerBot(bots)|] == ShareBot
  {
    PerBot(bots) + (if SomeLive(bots) then [ShareBot] else []) + (if |bots| == 1 then [SecondBot] else [])
  }

  /** `BotSuggestions`: at most the first three, or None when there are none. */
  function ShownSuggestions(bots: seq<Bot>): (r: Option<seq<Suggestion>>)
    ensures r.None? <==> Suggestions(bots) == []
    ensures r.Some? ==> 0 < |r.value| <= 3 && |r.value| <= |Suggestions(bots)| && r.value == Suggestions(bots)[..|r.value|]
    ensures r.Some? && |Suggestions(bots)| >= 3 ==> |r.value| == 3
  {
    var all := Suggestions(bots);
    if |all| == 0 then None else if |all| <= 3 then Some(all) else Some(all[..3])
  }

  /** A signed-in user with no bots sees no suggestions. */
  lemma NoBotsNoSuggestions()
    ensures ShownSuggestions([]) == None
  {
  }

  /** A draft bot with the default prompt yields its two suggestions first. */
  lemma DraftWithDefaultPromptFirst(b: Bot, rest: seq<Bot>)
    requires b.status == "draft" && DefaultPrompt(b.systemPrompt)
    ensures Suggestions([b] + rest)[..2] == [ActivateDraft(b.name), EditPrompt(b.name)]
  {
    assert ([b] + rest)[1..] == rest;
  }

  /** A single live bot with a customised prompt gets exactly "share" and
      "second bot". */
  lemma OneCustomLiveBot(b: Bot)
    requires b.status != "draft" && !DefaultPrompt(b.systemPrompt)
    ensures ShownSuggestions([b]) == Some([ShareBot, SecondBot])
  {
    assert [b][1..] == [];
    assert PerBot([b]) == [];
    assert SomeLive([b]) by { assert [b][0].status != "draft"; }
    assert Suggestions([b]) == [ShareBot, SecondBot];
  }

  // ----- claim banner -----

  /** The fields of the claim status the banner reads. */
  datatype ClaimStatusView = ClaimStatusView(claimed: bool, claim: Option<ClaimRow>, hasBots: bool, spotsRemaining: int)

  function ViewOf(r: Claims.Response): ClaimStatusView
    requires r.StatusReport?
  {
    ClaimStatusView(r.claimed, r.claimRow, r.hasBots, r.spotsRemaining)
  }

  datatype Banner = NoBanner | Reserved(wallet: string) | ClaimCta(spotsRemaining: int)

  /** `ClaimBanner`. */
  function ClaimBanner(isAuthenticated: bool, status: Option<ClaimStatusView>): (r: Banner)
    ensures !isAuthenticated || status.None? ==> r == NoBanner
    ensures r.Reserved? <==> isAuthenticated && status.Some? && status.value.claimed && status.value.claim.Some?
    ensures r.ClaimCta? <==>
      && isAuthenticated && status.Some?
      && !(status.value.claimed && status.value.claim.Some?)
      && status.value.hasBots && !status.value.claimed && status.value.spotsRemaining > 0
    ensures r.Reserved? ==> r.wallet == ShortWallet(status.value.claim.value.walletAddress)
  {
    if !isAuthenticated || status.None? then NoBanner
    else
      var s := status.value;
      if s.claimed && s.claim.Some? then Reserved(ShortWallet(s.claim.value.walletAddress))
      else if s.hasBots && !s.claimed && s.spotsRemaining > 0 then ClaimCta(s.spotsRemaining)
      else NoBanner
  }

  /** Against the server's status: the confirmation shows exactly when the
      user holds a claim, with that claim's shortened wallet, and the call to
      action exactly when the user has no claim, owns a bot and spots remain. */
  lemma BannerFollowsServer(t: Tables, u: string)
    ensures var v := ViewOf(Claims.Status(t, Some(u)));
      && (ClaimBanner(true, Some(v)).Reserved? <==> u in t.claims)
      && (ClaimBanner(true, Some(v)).Reserved? ==>
            ClaimBanner(true, Some(v)).wallet == ShortWallet(t.claims[u].walletAddress))
      && (ClaimBanner(true, Some(v)).ClaimCta? <==> u !in t.claims && BotCount(t.bots, u) > 0 && Claims.SpotsLeft(t) > 0)
  {
  }

  /** `s.slice(0, n)` for `n >= 0`. */
  function SliceTo(s: string, n: nat): (r: string)
    ensures |r| == if n < |s| then n else |s|
    ensures r == s[..|r|]
  {
    if n < |s| then s[..n] else s
  }

  /** `s.slice(-n)` for `n > 0`: the last `n` characters, or all of `s`. */
  function SliceLast(s: string, n: nat): (r: string)
    ensures |r| == if n < |s| then n else |s|
    ensures r == s[|s| - |r|..]
  {
    if n < |s| then s[|s| - n..] else s
  }

  /** `addr.slice(0, 6) + '...' + addr.slice(-4)`. */
  function ShortWallet(addr: string): (r: string)
    ensures |addr| >= 10 ==> |r| == 13 && r[..6] == addr[..6] && r[6..9] == "..." && r[9..] == addr[|addr| - 4..]
  {
    SliceTo(addr, 6) + "..." + SliceLast(addr, 4)
  }

  /** Any wallet the claim task accepts is long enough to shorten without
      overlap: thirteen characters, its first six and last four. */
  lemma ReservedWalletShortens(t: Tables, u: string)
    requires Claims.Good(t) && u in t.claims
    ensures |ShortWallet(t.claims[u].walletAddress)| == 13
  {
  }
}

=== FILE: db.dfy ===
/**
  The server's SQLite tables as immutable values. Row tables with a random
  primary key are sequences in insertion order, and a lookup returns the
  first matching row, as a single-row `get()` does. The tables with a
  uniqueness constraint on the lookup key are maps: `claims` is keyed by
  `user_id` (UNIQUE) and `claim_tasks` by `(user_id, task)` (UNIQUE).
*/
module Db {
  import opened Wrappers

  datatype UserRow = UserRow(id: string, name: string, email: string, passwordHash: string,
                             balanceCents: int, stripeCustomerId: Option<string>)

  datatype BotRow = BotRow(id: string, userId: string, name: string, persona: string, model: string,
                           systemPrompt: string, channel: string, status: string)

  datatype TxnRow = TxnRow(id: string, userId: string, kind: string, amountCents: int,
                           stripeSessionId: Option<string>)

  datatype ClaimRow = ClaimRow(walletAddress: string, amount: int, status: string)

  datatype TaskRow = TaskRow(reward: int, proof: Option<string>)

  datatype Tables = Tables(
    users: seq<UserRow>,
    bots: seq<BotRow>,
    txns: seq<TxnRow>,
    claims: map<string, ClaimRow>,
    claimTasks: map<(string, string), TaskRow>)

  /** `SELECT ... FROM users WHERE id = ?`: the first row with that id. */
  function UserById(users: seq<UserRow>, id: string): (r: Option<UserRow>)
    ensures r.Some? ==> r.value in users && r.value.id == id
    ensures r.None? <==> forall k :: 0 <= k < |users| ==> users[k].id != id
  {
    if |users| == 0 then None
    else if users[0].id == id then Some(users[0])
    else UserById(users[1..], id)
  }

  /** `SELECT ... FROM users WHERE email = ?`: the first row with that email. */
  function UserByEmail(users: seq<UserRow>, email: string): (r: Option<UserRow>)
    ensures r.Some? ==> r.value in users && r.value.email == email
    ensures r.None? <==> forall k :: 0 <= k < |users| ==> users[k].email != email
  {
    if |users| == 0 then None
    else if users[0].email == email then Some(users[0])
    else UserByEmail(users[1..], email)
  }

  /** `SELECT COUNT(*) FROM bots WHERE user_id = ?`. */
  function BotCount(bots: seq<BotRow>, userId: string): (n: nat)
    ensures n <= |bots|
    ensures n == 0 <==> forall k :: 0 <= k < |bots| ==> bots[k].userId != userId
  {
    if |bots| == 0 then 0
    else (if bots[0].userId == userId then 1 else 0) + BotCount(bots[1..], userId)
  }

  /** `SELECT id FROM transactions WHERE stripe_session_id = ?` finds a row. */
  predicate HasSessionTxn(t: Tables, sessionId: string) {
    exists k :: 0 <= k < |t.txns| && t.txns[k].stripeSessionId == Some(sessionId)
  }

  /** `UPDATE users SET balance_cents = balance_cents + ? WHERE id = ?`. */
  function Credit(users: seq<UserRow>, id: string, amount: int): (r: seq<UserRow>)
    ensures |r| == |users|
    ensures forall k :: 0 <= k < |users| ==>
      r[k] == if users[k].id == id then users[k].(balanceCents := users[k].balanceCents + amount) else users[k]
  {
    seq(|users|, k requires 0 <= k < |users| =>
      if users[k].id == id then users[k].(balanceCents := users[k].balanceCents + amount) else users[k])
  }

  /** Crediting moves the looked-up user's balance by exactly `amount`, and
      finds the same row again. */
  lemma {:induction false} CreditMovesBalance(users: seq<UserRow>, id: string, amount: int)
    ensures var f := UserById(users, id);
      var g := UserById(Credit(users, id, amount), id);
      && (f.None? <==> g.None?)
      && (f.Some? ==> g.value == f.value.(balanceCents := f.value.balanceCents + amount))
  {
    if |users| > 0 {
      assert Credit(users, id, amount)[1..] == Credit(users[1..], id, amount);
      CreditMovesBalance(users[1..], id, amount);
    }
  }

  /** A row appended under a new id is what the id lookup finds. */
  lemma {:induction false} UserByIdAppend(users: seq<UserRow>, u: UserRow)
    requires UserById(users, u.id).None?
    ensures UserById(users + [u], u.id) == Some(u)
  {
    if |users| > 0 {
      assert (users + [u])[1..] == users[1..] + [u];
      UserByIdAppend(users[1..], u);
    }
  }

  /** `SELECT COUNT(*) FROM claims WHERE status IN ('reserved', 'distributed')`. */
  function TotalClaimed(claims: map<string, ClaimRow>): nat {
    |set u | u in claims && (claims[u].status == "reserved" || claims[u].status == "distributed")|
  }
}

=== FILE: integrations.dfy ===
/**
  The skills step of onboarding: a fixed catalogue of ten integrations, six
  of them available, and a toggle that adds or removes an available id
  from the draft's selection and ignores every other id.
*/
module Integrations {
  import opened Wrappers
  import opened Onboarding

  datatype Integration = Integration(id: string, name: string, available: bool)

  const Catalogue: seq<Integration> := [
    Integration("gmail", "Gmail", true),
    Integration("calendar", "Google Calendar", true),
    Integration("github", "GitHub", true),
    Integration("browser", "Web Browsing", true),
    Integration("obsidian", "Obsidian / Notes", true),
    Integration("sheets", "Google Sheets", true),
    Integration("notion", "Notion", false),
    Integration("stripe", "Stripe", false),
    Integration("shopify", "Shopify", false),
    Integration("hubspot", "HubSpot", false)
  ]

  /** The ids the toggle accepts. */
  const AvailableIds: seq<string> := ["gmail", "calendar", "github", "browser", "obsidian", "sheets"]

  /** `integrations.find((i) => i.id === id)?.available`. */
  predicate IsAvailable(id: string) {
    exists k | 0 <= k < |Catalogue| :: Catalogue[k].id == id && Catalogue[k].available
  }

  lemma AvailableIdsMatchCatalogue(id: string)
    ensures IsAvailable(id) <==> id in AvailableIds
  {
    if id in AvailableIds {
      var k :| 0 <= k < |AvailableIds| && AvailableIds[k] == id;
      assert Catalogue[k].id == id && Catalogue[k].available;
    }
  }

  /** `items.filter((i) => i.available == want)`, in catalogue order. */
  function FilterAvailable(items: seq<Integration>, want: bool): (r: seq<Integration>)
    ensures forall i :: i in r <==> i in items && i.available == want
    ensures |r| <= |items|
    decreases |items|
  {
    if |items| == 0 then []
    else if items[0].available == want then [items[0]] + FilterAvailable(items[1..], want)
    else FilterAvailable(items[1..], want)
  }

  /** The two lists shown: available and coming soon. */
  function Available(): seq<Integration> { FilterAvailable(Catalogue, true) }
  function ComingSoon(): seq<Integration> { FilterAvailable(Catalogue, false) }

  /** Every catalogue entry is shown in exactly one of the two lists. */
  lemma {:induction false} FilterPartitions(items: seq<Integration>)
    ensures |FilterAvailable(items, true)| + |FilterAvailable(items, false)| == |items|
    decreases |items|
  {
    if |items| > 0 {
      FilterPartitions(items[1..]);
    }
  }

  /** The two lists split the catalogue: available entries are exactly the
      ones the toggle accepts. */
  lemma CatalogueSplit()
    ensures |Available()| + |ComingSoon()| == |Catalogue|
  {
    FilterPartitions(Catalogue);
  }

  /** `current.filter((i) => i !== id)`. */
  function Without(current: seq<string>, id: string): (r: seq<string>)
    ensures forall x :: x in r <==> x in current && x != id
    ensures |r| <= |current|
    decreases |current|
  {
    if |current| == 0 then []
    else if current[0] == id then Without(current[1..], id)
    else [current[0]] + Without(current[1..], id)
  }

  /** Removal keeps the order of what stays: it distributes over a split. */
  lemma {:induction false} WithoutAppend(a: seq<string>, b: seq<string>, id: string)
    ensures Without(a + b, id) == Without(a, id) + Without(b, id)
    decreases |a|
  {
    if |a| == 0 {
      assert a + b == b;
    } else {
      assert (a + b)[1..] == a[1..] + b;
      WithoutAppend(a[1..], b, id);
    }
  }

  /** `toggle(id)` on the selected ids. */
  function Toggle(current: seq<string>, id: string): (r: seq<string>)
    ensures !IsAvailable(id) ==> r == current
    ensures IsAvailable(id) ==> (id in r <==> id !in current)
    ensures IsAvailable(id) && id !in current ==> r == current + [id]
    ensures forall x :: x != id ==> (x in r <==> x in current)
  {
    if !IsAvailable(id) then current
    else if id in current then Without(current, id)
    else current + [id]
  }

  /** `isSelected(id)`. */
  predicate IsSelected(d: OnboardingData, id: string) {
    id in d.integrations
  }

  /** The toggle as the step applies it: an update of the draft's list. */
  function ToggleData(d: OnboardingData, id: string): (r: OnboardingData)
    ensures IsAvailable(id) ==> (IsSelected(r, id) <==> !IsSelected(d, id))
    ensures r.botName == d.botName && r.persona == d.persona && r.model == d.model
    ensures r.channel == d.channel && r.systemPrompt == d.systemPrompt
  {
    Update(d, NoChange.(integrations := Some(Toggle(d.integrations, id))))
  }

  /** Toggling an unselected id twice restores the list exactly. */
  lemma {:induction false} WithoutAppended(current: seq<string>, id: string)
    requires id !in current
    ensures Without(current + [id], id) == current
    decreases |current|
  {
    if |current| == 0 {
      assert current + [id] == [id];
    } else {
      assert (current + [id])[1..] == current[1..] + [id];
      WithoutAppended(current[1..], id);
    }
  }

  lemma ToggleTwiceRestores(current: seq<string>, id: string)
    requires id !in current
    ensures Toggle(Toggle(current, id), id) == current
  {
    if IsAvailable(id) {
      WithoutAppended(current, id);
    }
  }

  /** Each id occurs at most once. */
  predicate Distinct(s: seq<string>) {
    forall i, j :: 0 <= i < j < |s| ==> s[i] != s[j]
  }

  /** A selection holds each id once and only available ids. */
  predicate WellFormed(current: seq<string>) {
    Distinct(current) && forall k :: 0 <= k < |current| ==> IsAvailable(current[k])
  }

  lemma {:induction false} WithoutDistinct(current: seq<string>, id: string)
    requires Distinct(current)
    ensures Distinct(Without(current, id))
    decreases |current|
  {
    if |current| > 0 {
      var tail := current[1..];
      assert Distinct(tail) by {
        forall i, j | 0 <= i < j < |tail| ensures tail[i] != tail[j] {
          assert tail[i] == current[i + 1] && tail[j] == current[j + 1];
        }
      }
      WithoutDistinct(tail, id);
      var rest := Without(tail, id);
      if current[0] != id {
        assert current[0] !in tail by {
          forall m | 0 <= m < |tail| ensures tail[m] != current[0] {
            assert tail[m] == current[m + 1];
          }
        }
        var r := [current[0]] + rest;
        assert Without(current, id) == r;
        forall i, j | 0 <= i < j < |r| ensures r[i] != r[j] {
          if i == 0 {
            assert r[j] == rest[j - 1];
            assert rest[j - 1] in rest;
            assert rest[j - 1] in tail;
          } else {
            assert r[i] == rest[i - 1] && r[j] == rest[j - 1];
          }
        }
      } else {
        assert Without(current, id) == rest;
      }
    }
  }

  /** The toggle keeps a selection well formed. */
  lemma TogglePreservesWellFormed(current: seq<string>, id: string)
    requires WellFormed(current)
    ensures WellFormed(Toggle(current, id))
  {
    if IsAvailable(id) {
      var r := Toggle(current, id);
      if id in current {
        WithoutDistinct(current, id);
        assert r == Without(current, id);
        forall k | 0 <= k < |r| ensures IsAvailable(r[k]) {
          assert r[k] in current;
        }
      } else {
        forall i, j | 0 <= i < j < |r| ensures r[i] != r[j] {
          if j == |current| {
            assert r[i] == current[i];
          }
        }
      }
    }
  }
}

=== FILE: message_limit.dfy ===
/**
  The client-side daily quota of the public chat widget: a `{date, count}`
  record persisted in browser storage, reset when the stored date is not
  today, and a limit of 20 messages per day. The date key is the UTC
  `YYYY-MM-DD` prefix of the clock, taken here as an opaque string.
*/
module MessageLimit {

  const FreeDailyLimit: int := 20

  /** The persisted record. The count is whatever was stored, so any integer. */
  datatype DayCount = DayCount(date: string, count: int)

  /** What browser storage yields for the quota key: nothing (or the empty
      string), text that does not parse as a record, or a parsed record. */
  datatype Stored = Absent | Unreadable | Record(day: DayCount)

  /** `Math.max(0, FREE_DAILY_LIMIT - count)`. */
  function Remaining(d: DayCount): (r: int)
    ensures r >= 0
    ensures r >= FreeDailyLimit - d.count
    ensures r == 0 || r == FreeDailyLimit - d.count
  {
    if FreeDailyLimit - d.count > 0 then FreeDailyLimit - d.count else 0
  }

  /** `remaining <= 0`. */
  predicate IsLimited(d: DayCount) {
    Remaining(d) <= 0
  }

  /** The widget is limited exactly when the day's count has reached 20. */
  lemma IsLimitedIff(d: DayCount)
    ensures IsLimited(d) <==> d.count >= FreeDailyLimit
  {
  }

  /** A fresh record for `today`. */
  function Fresh(today: string): DayCount {
    DayCount(today, 0)
  }

  /** `load()`: the stored record when it is dated today, a zero count otherwise. */
  function Load(stored: Stored, today: string): (r: DayCount)
    ensures r.date == today
    ensures stored.Record? && stored.day.date == today ==> r == stored.day
    ensures !(stored.Record? && stored.day.date == today) ==> r.count == 0
  {
    match stored
    case Record(d) => if d.date == today then d else Fresh(today)
    case _ => Fresh(today)
  }

  /** `save(next)`: the record is written back whole. */
  function Save(d: DayCount): Stored {
    Record(d)
  }

  /** The state update inside `increment()`. */
  function Increment(prev: DayCount, today: string): (next: DayCount)
    ensures next.date == today
    ensures prev.date == today ==> next.count == prev.count + 1
    ensures prev.date != today ==> next.count == 1
  {
    if prev.date == today then DayCount(today, prev.count + 1) else DayCount(today, 1)
  }

  /** `increment()` as a whole: the new in-memory record and what is persisted. */
  function IncrementAndSave(prev: DayCount, today: string): (r: (DayCount, Stored))
    ensures Load(r.1, today) == r.0
    ensures r.0 == Increment(prev, today)
  {
    var next := Increment(prev, today);
    (next, Save(next))
  }

  /** What is persisted is loaded back unchanged on the same day. */
  lemma LoadSaveRoundTrip(d: DayCount)
    ensures Load(Save(d), d.date) == d
  {
  }

  /** A stale record never carries its count into a new day. */
  lemma IncrementResetsStaleDay(prev: DayCount, today: string)
    requires prev.date != today
    ensures Increment(prev, today) == DayCount(today, 1)
    ensures prev.count != 0 ==> Increment(prev, today).count != prev.count + 1
  {
  }

  /** `increment()` does not stop at the limit: the count keeps growing
      while `remaining` stays at zero. */
  lemma IncrementUncapped(prev: DayCount, today: string)
    requires prev.date == today && IsLimited(prev)
    ensures Increment(prev, today).count > prev.count
    ensures Remaining(Increment(prev, today)) == 0
  {
  }

  /** `n` consecutive calls of `increment()` on day `today`. */
  function IncrementTimes(d: DayCount, today: string, n: nat): DayCount
    decreases n
  {
    if n == 0 then d else Increment(IncrementTimes(d, today, n - 1), today)
  }

  /** The count `increment()` continues from on `today`. */
  function Base(d: DayCount, today: string): int {
    if d.date == today then d.count else 0
  }

  /** Within a day the count grows by exactly one per call. */
  lemma {:induction false} IncrementTimesCount(d: DayCount, today: string, n: nat)
    requires n > 0
    ensures IncrementTimes(d, today, n) == DayCount(today, Base(d, today) + n)
  {
    if n > 1 {
      IncrementTimesCount(d, today, n - 1);
    }
  }

  /** Starting from whatever `load()` gives on a day, `n` sends leave
      `max(0, 20 - n)` free messages when the day started unused. */
  lemma RemainingAfterSends(stored: Stored, today: string, n: nat)
    requires Load(stored, today).count == 0
    ensures Remaining(IncrementTimes(Load(stored, today), today, n)) == if n < FreeDailyLimit then FreeDailyLimit - n else 0
  {
    if n > 0 {
      IncrementTimesCount(Load(stored, today), today, n);
    }
  }
}

=== FILE: onboarding.dfy ===
/**
  The onboarding wizard: eight named steps, a step index that `next` and
  `back` move within bounds (signed-in users never return to the account
  step), and the draft bot data that each step merges partial updates into.
*/
module Onboarding {
  import opened Wrappers

  const Steps: seq<string> :=
    ["Account", "Name", "Model", "Channel", "System Prompt", "Skills", "Test Chat", "Done"]

  const LastStep: nat := 7

  const DefaultSystemPrompt: string :=
    "You are a helpful personal AI assistant. Be concise, friendly, and proactive."

  datatype OnboardingData = OnboardingData(
    botName: string, persona: string, model: string, channel: string,
    systemPrompt: string, integrations: seq<string>)

  /** The draft every wizard starts from. */
  const DefaultData: OnboardingData :=
    OnboardingData("", "friendly", "anthropic", "", DefaultSystemPrompt, [])

  /** `Partial<OnboardingData>`: a field is None when the key is absent. */
  datatype Patch = Patch(
    botName: Option<string>, persona: Option<string>, model: Option<string>, channel: Option<string>,
    systemPrompt: Option<string>, integrations: Option<seq<string>>)

  const NoChange: Patch := Patch(None, None, None, None, None, None)

  /** `{ ...prev, ...partial }`. */
  function Update(d: OnboardingData, p: Patch): (r: OnboardingData)
    ensures p.botName.Some? ==> r.botName == p.botName.value
    ensures p.botName.None? ==> r.botName == d.botName
    ensures p.integrations.Some? ==> r.integrations == p.integrations.value
    ensures p.integrations.None? ==> r.integrations == d.integrations
    ensures p.persona.Some? ==> r.persona == p.persona.value
    ensures p.persona.None? ==> r.persona == d.persona
    ensures p.model.Some? ==> r.model == p.model.value
    ensures p.model.None? ==> r.model == d.model
    ensures p.channel.Some? ==> r.channel == p.channel.value
    ensures p.channel.None? ==> r.channel == d.channel
    ensures p.systemPrompt.Some? ==> r.systemPrompt == p.systemPrompt.value
    ensures p.systemPrompt.None? ==> r.systemPrompt == d.systemPrompt
  {
    OnboardingData(
      p.botName.GetOr(d.botName), p.persona.GetOr(d.persona), p.model.GetOr(d.model),
      p.channel.GetOr(d.channel), p.systemPrompt.GetOr(d.systemPrompt),
      p.integrations.GetOr(d.integrations))
  }

  /** The later key wins: one spread of `p` then `q`. */
  function Then(p: Patch, q: Patch): Patch {
    Patch(Or(q.botName, p.botName), Or(q.persona, p.persona), Or(q.model, p.model),
          Or(q.channel, p.channel), Or(q.systemPrompt, p.systemPrompt), Or(q.integrations, p.integrations))
  }

  function Or<T>(a: Option<T>, b: Option<T>): Option<T> {
    if a.Some? then a else b
  }

  /** Two updates in a row are one update with the merged patch. */
  lemma UpdateComposes(d: OnboardingData, p: Patch, q: Patch)
    ensures Update(Update(d, p), q) == Update(d, Then(p, q))
  {
  }

  /** An empty patch changes nothing, and repeating a patch changes nothing more. */
  lemma UpdateIdentityAndIdempotent(d: OnboardingData, p: Patch)
    ensures Update(d, NoChange) == d
    ensures Update(Update(d, p), p) == Update(d, p)
  {
  }

  /** The header's title: `data.botName || 'New Bot'`. */
  function Title(d: OnboardingData): (r: string)
    ensures r != ""
    ensures d.botName != "" ==> r == d.botName
  {
    if d.botName != "" then d.botName else "New Bot"
  }

  datatype Wizard = Wizard(loggedIn: bool, step: nat, data: OnboardingData)

  /** The lowest step `back` may reach. */
  function FirstStep(loggedIn: bool): nat {
    if loggedIn then 1 else 0
  }

  predicate InBounds(w: Wizard) {
    FirstStep(w.loggedIn) <= w.step <= LastStep
  }

  function Start(loggedIn: bool): (w: Wizard)
    ensures InBounds(w) && w.step == FirstStep(loggedIn) && w.data == DefaultData
  {
    Wizard(loggedIn, if loggedIn then 1 else 0, DefaultData)
  }

  /** `next()`: advance unless on the last step. */
  function Next(w: Wizard): (r: Wizard)
    ensures InBounds(w) ==> InBounds(r)
    ensures w.step < LastStep ==> r.step == w.step + 1
    ensures w.step >= LastStep ==> r == w
  {
    if w.step < |Steps| - 1 then w.(step := w.step + 1) else w
  }

  /** `back()`: go back unless on the first reachable step. */
  function Back(w: Wizard): (r: Wizard)
    ensures InBounds(w) ==> InBounds(r)
    ensures w.step > FirstStep(w.loggedIn) ==> r.step == w.step - 1
    ensures w.step <= FirstStep(w.loggedIn) ==> r == w
  {
    if w.step > (if w.loggedIn then 1 else 0) then w.(step := w.step - 1) else w
  }

  /** `back` undoes `next`, and `next` undoes `back`, away from the ends. */
  lemma NextBackInverse(w: Wizard)
    requires InBounds(w)
    ensures w.step < LastStep ==> Back(Next(w)) == w
    ensures w.step > FirstStep(w.loggedIn) ==> Next(Back(w)) == w
  {
  }

  datatype Action = GoNext | GoBack | Edit(p: Patch)

  function Apply(w: Wizard, a: Action): Wizard {
    match a
    case GoNext => Next(w)
    case GoBack => Back(w)
    case Edit(p) => w.(data := Update(w.data, p))
  }

  function Run(w: Wizard, actions: seq<Action>): Wizard
    decreases |actions|
  {
    if |actions| == 0 then w else Run(Apply(w, actions[0]), actions[1..])
  }

  /** From the start, every sequence of clicks and edits keeps the step
      between the first reachable step and the last. */
  lemma {:induction false} RunInBounds(w: Wizard, actions: seq<Action>)
    requires InBounds(w)
    ensures InBounds(Run(w, actions))
    ensures Run(w, actions).loggedIn == w.loggedIn
    decreases |actions|
  {
    if |actions| > 0 {
      assert InBounds(Apply(w, actions[0]));
      RunInBounds(Apply(w, actions[0]), actions[1..]);
    }
  }

  /** The steps in the progress bar: the account step is hidden once signed in. */
  function VisibleSteps(loggedIn: bool): (r: seq<string>)
    ensures |r| == |Steps| - FirstStep(loggedIn)
  {
    if loggedIn then Steps[1..] else Steps
  }

  function VisibleIndex(w: Wizard): int {
    if w.loggedIn then w.step - 1 else w.step
  }

  /** The progress bar always points at a real entry, and it names the
      current step. */
  lemma ProgressNamesCurrentStep(w: Wizard)
    requires InBounds(w)
    ensures 0 <= VisibleIndex(w) < |VisibleSteps(w.loggedIn)|
    ensures VisibleSteps(w.loggedIn)[VisibleIndex(w)] == Steps[w.step]
  {
  }
}

=== FILE: payments.dfy ===
/**
  The payment routes: checkout creation restricted to three top-up amounts,
  and the three ways a paid checkout session credits a balance — `/verify`
  for a signed-in user, the processor's webhook, and `/activate-verify`,
  which may also create the account and migrate draft bots. The payment
  processor, password hashing and token signing are opaque: a retrieved
  session is an input, and fresh ids are parameters.
*/
module Payments {
  import opened Text
  import opened Wrappers
  import opened Db

  /** `allowedAmounts`. */
  const AllowedAmounts: seq<int> := [500, 1000, 2500]

  const DefaultPrompt: string := "You are a helpful personal AI assistant."

  /** The persona and model a draft without one is given. */
  const DefaultPersona: string := "friendly"
  const DefaultModel: string := "anthropic"

  /** A checkout session as the processor reports it. Absent text fields are "". */
  datatype Session = Session(
    id: string,
    metadataUserId: string,   // metadata.agentforge_user_id
    paid: bool,   // payment_status === 'paid'
    amountCents: int,   // metadata.amount_cents, already parsed
    detailsEmail: string,   // customer_details.email
    customerEmail: string,   // customer_email
    detailsName: string,   // customer_details.name
    customer: Option<string>)   // customer, when it is a string id

  datatype Response =
    | Unauthorized   // 401
    | NotConfigured   // 503
    | MissingSessionId   // 400
    | InvalidTopUpAmount   // 400
    | UserNotFound   // 404
    | WrongOwner   // 403
    | PaymentNotCompleted   // 400
    | InvalidAmount   // 400
    | NoEmail   // 400
    | InvalidSignature   // 400
    | ServerError   // 500
    | CheckoutCreated(customer: Option<string>, metadataUserId: Option<string>, amountCents: int)
    | AlreadyCredited(balance: int)
    | Credited(balance: int, credited: int)
    | Received
    | AlreadyActivated(userId: string, balance: int)
    | Activated(userId: string, balance: int, botsMigrated: nat)
    | BalanceReport(balance: int)
    | Unanswered   // the handler throws after the signature check and sends nothing

  function Code(r: Response): int {
    match r
    case Unauthorized => 401
    case NotConfigured => 503
    case MissingSessionId => 400
    case InvalidTopUpAmount => 400
    case UserNotFound => 404
    case WrongOwner => 403
    case PaymentNotCompleted => 400
    case InvalidAmount => 400
    case NoEmail => 400
    case InvalidSignature => 400
    case ServerError => 500
    case Unanswered => 0   // no status line is ever written
    case _ => 200
  }

  // ----- balance -----

  /** `GET /balance`: a missing user reads as a zero balance. */
  function Balance(t: Tables, caller: Option<string>): (r: Response)
    ensures caller.None? <==> r == Unauthorized
    ensures caller.Some? && UserById(t.users, caller.value).None? ==> r == BalanceReport(0)
    ensures caller.Some? && UserById(t.users, caller.value).Some? ==>
      r == BalanceReport(UserById(t.users, caller.value).value.balanceCents)
  {
    match caller
    case None => Unauthorized
    case Some(u) =>
      match UserById(t.users, u)
      case None => BalanceReport(0)
      case Some(row) => BalanceReport(row.balanceCents)
  }

  // ----- checkout creation -----

  /** A user row with a processor customer id: `stripe_customer_id` is truthy. */
  predicate HasCustomer(row: UserRow) {
    row.stripeCustomerId.Some? && row.stripeCustomerId.value != ""
  }

  /** `POST /create-checkout`. `newCustomerId` is the id the processor
      assigns when the user has none yet. */
  function CreateCheckout(t: Tables, caller: Option<string>, configured: bool, amountCents: int,
                          newCustomerId: string): (r: (Tables, Response))
    ensures caller.None? ==> r == (t, Unauthorized)
    ensures caller.Some? && !configured ==> r == (t, NotConfigured)
    ensures r.1.CheckoutCreated? ==> amountCents in AllowedAmounts && caller.Some? && configured
    ensures caller.Some? && configured && amountCents !in AllowedAmounts ==> r == (t, InvalidTopUpAmount)
    ensures r.1.CheckoutCreated? ==> r.1.metadataUserId == caller && r.1.amountCents == amountCents
    ensures !r.1.CheckoutCreated? ==> r.0 == t
    ensures r.0.bots == t.bots && r.0.txns == t.txns && r.0.claims == t.claims
    // an allowed amount for a signed-in user: 404 without a row, otherwise a session
    ensures caller.Some? && configured && amountCents in AllowedAmounts && UserById(t.users, caller.value).None? ==>
      r == (t, UserNotFound)
    ensures caller.Some? && configured && amountCents in AllowedAmounts && UserById(t.users, caller.value).Some? ==>
      var row := UserById(t.users, caller.value).value;
      && r.1.CheckoutCreated?
      && (HasCustomer(row) ==> r.0 == t && r.1.customer == row.stripeCustomerId)
      && (!HasCustomer(row) ==>
            && r.0 == t.(users := SetCustomer(t.users, caller.value, newCustomerId))
            && r.1.customer == Some(newCustomerId))
  {
    match caller
    case None => (t, Unauthorized)
    case Some(u) =>
      if !configured then (t, NotConfigured)
      else if amountCents !in AllowedAmounts then (t, InvalidTopUpAmount)
      else
        match UserById(t.users, u)
        case None => (t, UserNotFound)
        case Some(row) =>
          if HasCustomer(row) then
            (t, CheckoutCreated(row.stripeCustomerId, Some(u), amountCents))
          else
            (t.(users := SetCustomer(t.users, u, newCustomerId)),
             CheckoutCreated(Some(newCustomerId), Some(u), amountCents))
  }

  /** `POST /activate-checkout`: no sign-in needed; the metadata carries the
      caller's id only when there is one. */
  function ActivateCheckout(t: Tables, caller: Option<string>, configured: bool, amountCents: int): (r: Response)
    ensures r.CheckoutCreated? <==> configured && amountCents in AllowedAmounts
    ensures configured && amountCents !in AllowedAmounts ==> r == InvalidTopUpAmount
    ensures r.CheckoutCreated? ==> r.metadataUserId == caller && r.amountCents == amountCents
  {
    if !configured then NotConfigured
    else if amountCents !in AllowedAmounts then InvalidTopUpAmount
    else
      var customer :=
        if caller.Some? && UserById(t.users, caller.value).Some? && HasCustomer(UserById(t.users, caller.value).value)
        then UserById(t.users, caller.value).value.stripeCustomerId
        else None;
      CheckoutCreated(customer, caller, amountCents)
  }

  /** For a signed-in user with an account, both checkout routes accept
      exactly the same amounts, and a customer id on file is passed on by both. */
  lemma CheckoutRoutesAgree(t: Tables, u: string, configured: bool, amountCents: int, newCustomerId: string)
    requires UserById(t.users, u).Some?
    ensures var c := CreateCheckout(t, Some(u), configured, amountCents, newCustomerId).1;
      var a := ActivateCheckout(t, Some(u), configured, amountCents);
      && (c.CheckoutCreated? <==> a.CheckoutCreated?)
      && (!c.CheckoutCreated? ==> c == a)
      && (c.CheckoutCreated? && HasCustomer(UserById(t.users, u).value) ==> c.customer == a.customer)
  {
  }

  /** `UPDATE users SET stripe_customer_id = ? WHERE id = ?`. */
  function SetCustomer(users: seq<UserRow>, id: string, customer: string): (r: seq<UserRow>)
    ensures |r| == |users|
    ensures forall k :: 0 <= k < |users| ==>
      r[k] == if users[k].id == id then users[k].(stripeCustomerId := Some(customer)) else users[k]
  {
    seq(|users|, k requires 0 <= k < |users| =>
      if users[k].id == id then users[k].(stripeCustomerId := Some(customer)) else users[k])
  }

  /** After the update, the id lookup finds the same row with the new customer id. */
  lemma {:induction false} SetCustomerFinds(users: seq<UserRow>, id: string, customer: string)
    ensures var f := UserById(users, id);
      var g := UserById(SetCustomer(users, id, customer), id);
      && (f.None? <==> g.None?)
      && (f.Some? ==> g.value == f.value.(stripeCustomerId := Some(customer)))
  {
    if |users| > 0 {
      assert SetCustomer(users, id, customer)[1..] == SetCustomer(users[1..], id, customer);
      SetCustomerFinds(users[1..], id, customer);
    }
  }

  // ----- crediting -----

  /** The one effect every crediting path shares: the balance update and the
      `topup` transaction tagged with the session id. */
  function CreditSession(t: Tables, userId: string, amountCents: int, sessionId: string, txnId: string): (t': Tables)
    ensures t'.txns == t.txns + [TxnRow(txnId, userId, "topup", amountCents, Some(sessionId))]
    ensures t'.bots == t.bots && t'.claims == t.claims && t'.claimTasks == t.claimTasks
  {
    t.(users := Credit(t.users, userId, amountCents),
       txns := t.txns + [TxnRow(txnId, userId, "topup", amountCents, Some(sessionId))])
  }

  /** Crediting records the session, so a later check finds it. */
  lemma CreditSessionRecords(t: Tables, userId: string, amountCents: int, sessionId: string, txnId: string)
    ensures HasSessionTxn(CreditSession(t, userId, amountCents, sessionId, txnId), sessionId)
  {
    var t' := CreditSession(t, userId, amountCents, sessionId, txnId);
    assert t'.txns[|t'.txns| - 1].stripeSessionId == Some(sessionId);
  }

  /** Crediting raises the user's balance by exactly the amount and touches
      no other user. */
  lemma CreditSessionBalance(t: Tables, userId: string, amountCents: int, sessionId: string, txnId: string)
    requires UserById(t.users, userId).Some?
    ensures var t' := CreditSession(t, userId, amountCents, sessionId, txnId);
      && UserById(t'.users, userId).Some?
      && UserById(t'.users, userId).value.balanceCents == UserById(t.users, userId).value.balanceCents + amountCents
      && forall k :: 0 <= k < |t.users| && t.users[k].id != userId ==> t'.users[k] == t.users[k]
  {
    CreditMovesBalance(t.users, userId, amountCents);
  }

  /** `POST /verify`. `session` is None when retrieval fails. */
  function Verify(t: Tables, caller: Option<string>, configured: bool, sessionId: string,
                   session: Option<Session>, txnId: string): (r: (Tables, Response))
    // every refusal comes before any write
    ensures !r.1.Credited? ==> r.0 == t
    ensures caller.None? ==> r == (t, Unauthorized)
    ensures caller.Some? && !configured ==> r == (t, NotConfigured)
    ensures caller.Some? && configured && sessionId == "" ==> r == (t, MissingSessionId)
    // a failed session lookup is caught as a 500
    ensures caller.Some? && configured && sessionId != "" && session.None? ==> r == (t, ServerError)
    ensures caller.Some? && configured && sessionId != "" && session.Some? ==>
      && (session.value.metadataUserId != caller.value ==> r.1 == WrongOwner)
      && (session.value.metadataUserId == caller.value && !session.value.paid ==> r.1 == PaymentNotCompleted)
      && (session.value.metadataUserId == caller.value && session.value.paid && session.value.amountCents <= 0 ==>
            r.1 == InvalidAmount)
    // a session already recorded changes nothing and reports the caller's balance
    ensures HasSessionTxn(t, sessionId) ==> r.0 == t
    ensures (&& caller.Some? && configured && sessionId != "" && session.Some?
             && session.value.metadataUserId == caller.value && session.value.paid
             && session.value.amountCents > 0 && HasSessionTxn(t, sessionId)) ==>
      && (UserById(t.users, caller.value).Some? ==>
            r.1 == AlreadyCredited(UserById(t.users, caller.value).value.balanceCents))
      && (UserById(t.users, caller.value).None? ==> r.1 == ServerError)
    // the first credit: exactly one topup transaction for exactly the session's amount
    ensures r.0 != t ==>
      && caller.Some? && session.Some? && session.value.paid && session.value.amountCents > 0
      && session.value.metadataUserId == caller.value && !HasSessionTxn(t, sessionId)
      && UserById(t.users, caller.value).Some?
      && r.0 == CreditSession(t, caller.value, session.value.amountCents, sessionId, txnId)
    ensures r.1.Credited? ==> session.Some? && r.1.credited == session.value.amountCents && r.0 != t
    // an owned, paid, positive, unrecorded session is credited to an existing
    // user; for a missing user the transaction's foreign key fails the insert
    ensures (&& caller.Some? && configured && sessionId != "" && session.Some?
             && session.value.metadataUserId == caller.value && session.value.paid
             && session.value.amountCents > 0 && !HasSessionTxn(t, sessionId)) ==>
      && (UserById(t.users, caller.value).None? ==> r == (t, ServerError))
      && (UserById(t.users, caller.value).Some? ==>
            && r.0 == CreditSession(t, caller.value, session.value.amountCents, sessionId, txnId)
            && r.1 == Credited(UserById(t.users, caller.value).value.balanceCents + session.value.amountCents,
                               session.value.amountCents))
  {
    match caller
    case None => (t, Unauthorized)
    case Some(u) =>
      if !configured then (t, NotConfigured)
      else if sessionId == "" then (t, MissingSessionId)
      else
        match session
        case None => (t, ServerError)
        case Some(s) =>
          if s.metadataUserId != u then (t, WrongOwner)
          else if !s.paid then (t, PaymentNotCompleted)
          else if s.amountCents <= 0 then (t, InvalidAmount)
          else if HasSessionTxn(t, sessionId) then
            match UserById(t.users, u)
            case None => (t, ServerError)
            case Some(row) => (t, AlreadyCredited(row.balanceCents))
          else if UserById(t.users, u).None? then (t, ServerError)
          else
            var t' := CreditSession(t, u, s.amountCents, sessionId, txnId);
            assert t' != t by { assert |t'.txns| != |t.txns|; }
            CreditMovesBalance(t.users, u, s.amountCents);
            (t', Credited(UserById(t'.users, u).value.balanceCents, s.amountCents))
  }

  /** Verifying the same session again answers "already credited" and
      changes nothing. */
  lemma VerifyIdempotent(t: Tables, u: string, sessionId: string, s: Session, txn1: string, txn2: string)
    requires Verify(t, Some(u), true, sessionId, Some(s), txn1).1.Credited?
    ensures var t1 := Verify(t, Some(u), true, sessionId, Some(s), txn1).0;
      && Verify(t1, Some(u), true, sessionId, Some(s), txn2).0 == t1
      && Verify(t1, Some(u), true, sessionId, Some(s), txn2).1.AlreadyCredited?
  {
    CreditSessionRecords(t, u, s.amountCents, sessionId, txn1);
  }

  /** A webhook delivery: signature check result, event type, session. */
  datatype WebhookEvent = WebhookEvent(signatureValid: bool, kind: string, session: Session)

  /** `POST /webhook`. Configured means both the processor key and the
      webhook secret are set. */
  function Webhook(t: Tables, configured: bool, e: WebhookEvent, txnId: string): (r: (Tables, Response))
    ensures !configured ==> r == (t, NotConfigured)
    ensures configured && !e.signatureValid ==> r == (t, InvalidSignature)
    ensures configured && e.signatureValid ==> r.1 == Received || r.1 == Unanswered
    // credits only a completed checkout with a user id and a positive amount, once per session
    ensures r.0 != t ==>
      && e.kind == "checkout.session.completed"
      && e.session.metadataUserId != "" && e.session.amountCents > 0
      && !HasSessionTxn(t, e.session.id)
      && UserById(t.users, e.session.metadataUserId).Some?
      && r.0 == CreditSession(t, e.session.metadataUserId, e.session.amountCents, e.session.id, txnId)
    ensures (&& configured && e.signatureValid && e.kind == "checkout.session.completed"
             && e.session.metadataUserId != "" && e.session.amountCents > 0
             && !HasSessionTxn(t, e.session.id)) ==>
      (r.0 != t <==> UserById(t.users, e.session.metadataUserId).Some?)
    // a credit for an id with no account fails the transaction's foreign key
    ensures r.1 == Unanswered <==>
      && configured && e.signatureValid && e.kind == "checkout.session.completed"
      && e.session.metadataUserId != "" && e.session.amountCents > 0
      && !HasSessionTxn(t, e.session.id) && UserById(t.users, e.session.metadataUserId).None?
    ensures r.1 == Unanswered ==> r.0 == t
  {
    if !configured then (t, NotConfigured)
    else if !e.signatureValid then (t, InvalidSignature)
    else if e.kind == "checkout.session.completed" && e.session.metadataUserId != "" && e.session.amountCents > 0
            && !HasSessionTxn(t, e.session.id) then
      if UserById(t.users, e.session.metadataUserId).None? then (t, Unanswered)
      else
        var t' := CreditSession(t, e.session.metadataUserId, e.session.amountCents, e.session.id, txnId);
        assert |t'.txns| != |t.txns|;
        (t', Received)
    else (t, Received)
  }

  /** A session credited through `/verify` is not credited again when the
      webhook for it arrives. */
  lemma VerifyThenWebhookCreditsOnce(t: Tables, u: string, s: Session, txn1: string, txn2: string, e: WebhookEvent)
    requires Verify(t, Some(u), true, s.id, Some(s), txn1).1.Credited?
    requires e.session.id == s.id
    ensures var t1 := Verify(t, Some(u), true, s.id, Some(s), txn1).0;
      Webhook(t1, true, e, txn2).0 == t1
  {
    CreditSessionRecords(t, u, s.amountCents, s.id, txn1);
  }

  // ----- activation -----

  /** A draft bot sent by the browser. Absent text fields are "". */
  datatype Draft = Draft(name: Option<string>, persona: string, model: string, channel: string, systemPrompt: string)

  /** `draft.name?.trim()` is non-empty. */
  predicate Migratable(d: Draft) {
    d.name.Some? && Trim(d.name.value) != ""
  }

  /** The row inserted for a migratable draft: the trimmed name, the
      persona, model and prompt defaults for empty fields, the channel as
      sent, and status online. */
  function DraftRow(d: Draft, id: string, userId: string): (r: BotRow)
    requires Migratable(d)
    ensures r.id == id && r.userId == userId && r.status == "online" && r.channel == d.channel
    ensures r.name == Trim(d.name.value) && r.name != ""
  {
    BotRow(id, userId, Trim(d.name.value),
           if d.persona != "" then d.persona else DefaultPersona,
           if d.model != "" then d.model else DefaultModel,
           if d.systemPrompt != "" then d.systemPrompt else DefaultPrompt,
           d.channel,
           "online")
  }

  /** Empty persona, model and prompt fields fall back to the defaults;
      non-empty ones are kept as sent. */
  lemma DraftRowDefaults(d: Draft, id: string, userId: string)
    requires Migratable(d)
    ensures var r := DraftRow(d, id, userId);
      && r.persona == (if d.persona == "" then DefaultPersona else d.persona)
      && r.model == (if d.model == "" then DefaultModel else d.model)
      && r.systemPrompt == (if d.systemPrompt == "" then DefaultPrompt else d.systemPrompt)
  {
  }

  /** The rows the draft loop inserts, in draft order; `ids` are the fresh bot ids. */
  function DraftRows(drafts: seq<Draft>, ids: seq<string>, userId: string): (r: seq<BotRow>)
    requires |ids| == |drafts|
    ensures |r| <= |drafts|
    ensures forall k :: 0 <= k < |r| ==>
      && r[k].userId == userId && r[k].status == "online" && r[k].name != "" && r[k].name == Trim(r[k].name)
    decreases |drafts|
  {
    if |drafts| == 0 then []
    else
      var rest := DraftRows(drafts[1..], ids[1..], userId);
      if Migratable(drafts[0]) then
        TrimIdempotent(drafts[0].name.value);
        [DraftRow(drafts[0], ids[0], userId)] + rest
      else rest
  }

  predicate AllMigratable(drafts: seq<Draft>) {
    forall k :: 0 <= k < |drafts| ==> Migratable(drafts[k])
  }

  predicate NoneMigratable(drafts: seq<Draft>) {
    forall k :: 0 <= k < |drafts| ==> !Migratable(drafts[k])
  }

  lemma AllMigratableSplit(drafts: seq<Draft>)
    requires |drafts| > 0
    ensures AllMigratable(drafts) <==> Migratable(drafts[0]) && AllMigratable(drafts[1..])
  {
    var tl := drafts[1..];
    if Migratable(drafts[0]) && AllMigratable(tl) {
      forall k | 1 <= k < |drafts| ensures Migratable(drafts[k]) { assert drafts[k] == tl[k - 1]; }
    }
    if AllMigratable(drafts) {
      forall k | 0 <= k < |tl| ensures Migratable(tl[k]) { assert tl[k] == drafts[k + 1]; }
    }
  }

  lemma NoneMigratableSplit(drafts: seq<Draft>)
    requires |drafts| > 0
    ensures NoneMigratable(drafts) <==> !Migratable(drafts[0]) && NoneMigratable(drafts[1..])
  {
    var tl := drafts[1..];
    if !Migratable(drafts[0]) && NoneMigratable(tl) {
      forall k | 1 <= k < |drafts| ensures !Migratable(drafts[k]) { assert drafts[k] == tl[k - 1]; }
    }
    if NoneMigratable(drafts) {
      forall k | 0 <= k < |tl| ensures !Migratable(tl[k]) { assert tl[k] == drafts[k + 1]; }
    }
  }

  /** Every draft yields a row exactly when all are migratable. */
  lemma {:induction false} DraftRowsAllCount(drafts: seq<Draft>, ids: seq<string>, userId: string)
    requires |ids| == |drafts|
    ensures |DraftRows(drafts, ids, userId)| == |drafts| <==> AllMigratable(drafts)
    decreases |drafts|
  {
    if |drafts| > 0 {
      DraftRowsAllCount(drafts[1..], ids[1..], userId);
      AllMigratableSplit(drafts);
    }
  }

  /** No draft yields a row exactly when none is migratable. */
  lemma {:induction false} DraftRowsNoneCount(drafts: seq<Draft>, ids: seq<string>, userId: string)
    requires |ids| == |drafts|
    ensures DraftRows(drafts, ids, userId) == [] <==> NoneMigratable(drafts)
    decreases |drafts|
  {
    if |drafts| > 0 {
      DraftRowsNoneCount(drafts[1..], ids[1..], userId);
      NoneMigratableSplit(drafts);
    }
  }

  /** One draft yields its row exactly when it is migratable. */
  lemma DraftRowsSingle(d: Draft, id: string, userId: string)
    ensures DraftRows([d], [id], userId) == (if Migratable(d) then [DraftRow(d, id, userId)] else [])
  {
    assert [d][1..] == [];
  }

  /** The draft loop over two lists is the loop over the first followed by
      the loop over the second; with `DraftRowsSingle` this fixes the rows,
      their number and their order. */
  lemma {:induction false} DraftRowsAppend(a: seq<Draft>, ai: seq<string>, b: seq<Draft>, bi: seq<string>, userId: string)
    requires |ai| == |a| && |bi| == |b|
    ensures DraftRows(a + b, ai + bi, userId) == DraftRows(a, ai, userId) + DraftRows(b, bi, userId)
    decreases |a|
  {
    if |a| == 0 {
      assert a + b == b && ai + bi == bi;
    } else {
      assert (a + b)[0] == a[0] && (ai + bi)[0] == ai[0];
      assert (a + b)[1..] == a[1..] + b;
      assert (ai + bi)[1..] == ai[1..] + bi;
      DraftRowsAppend(a[1..], ai[1..], b, bi, userId);
    }
  }

  /** The k-th draft is migratable and `b` is its row. */
  predicate RowOfDraft(drafts: seq<Draft>, ids: seq<string>, userId: string, k: int, b: BotRow)
    requires |ids| == |drafts|
  {
    0 <= k < |drafts| && Migratable(drafts[k]) && b == DraftRow(drafts[k], ids[k], userId)
  }

  /** Every migratable draft's row is inserted. */
  lemma DraftRowsContains(drafts: seq<Draft>, ids: seq<string>, userId: string, k: int)
    requires |ids| == |drafts| && 0 <= k < |drafts| && Migratable(drafts[k])
    ensures DraftRow(drafts[k], ids[k], userId) in DraftRows(drafts, ids, userId)
  {
    var before, after := drafts[..k], drafts[k + 1..];
    var beforeIds, afterIds := ids[..k], ids[k + 1..];
    assert drafts == before + ([drafts[k]] + after);
    assert ids == beforeIds + ([ids[k]] + afterIds);
    var row := DraftRow(drafts[k], ids[k], userId);
    assert DraftRows([drafts[k]] + after, [ids[k]] + afterIds, userId) == [row] + DraftRows(after, afterIds, userId) by {
      DraftRowsAppend([drafts[k]], [ids[k]], after, afterIds, userId);
      DraftRowsSingle(drafts[k], ids[k], userId);
    }
    var r := DraftRows(drafts, ids, userId);
    var pre := DraftRows(before, beforeIds, userId);
    assert r == pre + ([row] + DraftRows(after, afterIds, userId)) by {
      DraftRowsAppend(before, beforeIds, [drafts[k]] + after, [ids[k]] + afterIds, userId);
    }
    assert r[|pre|] == row;
  }

  /** Every inserted row is the row of some migratable draft. */
  lemma {:induction false} DraftRowsOnly(drafts: seq<Draft>, ids: seq<string>, userId: string, b: BotRow)
    requires |ids| == |drafts| && b in DraftRows(drafts, ids, userId)
    ensures exists k :: RowOfDraft(drafts, ids, userId, k, b)
    decreases |drafts|
  {
    var tl, ti := drafts[1..], ids[1..];
    if b in DraftRows(tl, ti, userId) {
      DraftRowsOnly(tl, ti, userId, b);
      var j :| RowOfDraft(tl, ti, userId, j, b);
      assert tl[j] == drafts[j + 1] && ti[j] == ids[j + 1];
      assert RowOfDraft(drafts, ids, userId, j + 1, b);
    } else {
      assert RowOfDraft(drafts, ids, userId, 0, b);
    }
  }

  /** `name LIKE '%''s Bot'`: SQLite's LIKE ignores ASCII case. */
  predicate LooksLikeDefaultName(name: string) {
    |name| >= 6 && ToLower(name[|name| - 6..]) == "'s bot"
  }

  /** `DELETE FROM bots WHERE user_id = ? AND name LIKE '%''s Bot'`. */
  function DeleteDefaultBots(bots: seq<BotRow>, userId: string): (r: seq<BotRow>)
    ensures forall b :: b in r <==> b in bots && !(b.userId == userId && LooksLikeDefaultName(b.name))
    decreases |bots|
  {
    if |bots| == 0 then []
    else
      var rest := DeleteDefaultBots(bots[1..], userId);
      if bots[0].userId == userId && LooksLikeDefaultName(bots[0].name) then rest else [bots[0]] + rest
  }

  /** The draft migration: insert, then delete default-named bots whenever
      the draft list is non-empty. */
  function MigrateDrafts(bots: seq<BotRow>, drafts: seq<Draft>, ids: seq<string>, userId: string): seq<BotRow>
    requires |ids| == |drafts|
  {
    var inserted := bots + DraftRows(drafts, ids, userId);
    if |drafts| > 0 then DeleteDefaultBots(inserted, userId) else inserted
  }

  /** The migration keeps every row of a migratable draft whose trimmed name
      does not look like a signup default, and every bot that is not a
      default-named bot of this user. */
  lemma MigrateKeepsDrafts(bots: seq<BotRow>, drafts: seq<Draft>, ids: seq<string>, userId: string, k: int)
    requires |ids| == |drafts| && 0 <= k < |drafts|
    requires Migratable(drafts[k]) && !LooksLikeDefaultName(Trim(drafts[k].name.value))
    ensures DraftRow(drafts[k], ids[k], userId) in MigrateDrafts(bots, drafts, ids, userId)
    ensures forall b :: b in bots && !(b.userId == userId && LooksLikeDefaultName(b.name)) ==>
      b in MigrateDrafts(bots, drafts, ids, userId)
  {
    DraftRowsContains(drafts, ids, userId, k);
  }

  /** `customer_details.email || customer_email || ''`. */
  function CustomerEmail(s: Session): string {
    if s.detailsEmail != "" then s.detailsEmail else s.customerEmail
  }

  /** `email.split('@')[0]`. */
  function LocalPart(email: string): (r: string)
    ensures |r| <= |email| && r == email[..|r|]
    ensures '@' !in r
    ensures |r| < |email| ==> email[|r|] == '@'
    ensures r == "" <==> email == "" || email[0] == '@'
  {
    if |email| == 0 || email[0] == '@' then "" else [email[0]] + LocalPart(email[1..])
  }

  /** `customer_details.name || email.split('@')[0] || 'Bot Owner'`. */
  function CustomerName(s: Session): (r: string)
    ensures r != ""
    ensures s.detailsName != "" ==> r == s.detailsName
    ensures s.detailsName == "" && CustomerEmail(s) != "" && CustomerEmail(s)[0] != '@' ==>
      r == LocalPart(CustomerEmail(s)) && r != ""
    ensures s.detailsName == "" && '@' !in CustomerEmail(s) && CustomerEmail(s) != "" ==> r == CustomerEmail(s)
    ensures s.detailsName == "" && (CustomerEmail(s) == "" || CustomerEmail(s)[0] == '@') ==> r == "Bot Owner"
  {
    if s.detailsName != "" then s.detailsName
    else if LocalPart(CustomerEmail(s)) != "" then LocalPart(CustomerEmail(s))
    else "Bot Owner"
  }

  /** Which row the activation credits, and how it was found. */
  datatype Resolution = ByMetadataId(row: UserRow) | ByEmail(row: UserRow) | Created(row: UserRow)

  /** The user lookup of `/activate-verify`: the metadata id first, then the
      email, otherwise a new account with a zero balance. */
  function ResolveUser(t: Tables, s: Session, freshUserId: string, passwordHash: string): (r: Resolution)
    ensures s.metadataUserId != "" && UserById(t.users, s.metadataUserId).Some? ==>
      r == ByMetadataId(UserById(t.users, s.metadataUserId).value)
    ensures (s.metadataUserId == "" || UserById(t.users, s.metadataUserId).None?)
            && UserByEmail(t.users, CustomerEmail(s)).Some? ==>
      r == ByEmail(UserByEmail(t.users, CustomerEmail(s)).value)
    ensures r.Created? <==>
      (s.metadataUserId == "" || UserById(t.users, s.metadataUserId).None?) && UserByEmail(t.users, CustomerEmail(s)).None?
    ensures r.Created? ==>
      r.row == UserRow(freshUserId, CustomerName(s), CustomerEmail(s), passwordHash, 0, s.customer)
    ensures !r.Created? ==> r.row in t.users
  {
    if s.metadataUserId != "" && UserById(t.users, s.metadataUserId).Some? then
      ByMetadataId(UserById(t.users, s.metadataUserId).value)
    else if UserByEmail(t.users, CustomerEmail(s)).Some? then
      ByEmail(UserByEmail(t.users, CustomerEmail(s)).value)
    else
      Created(UserRow(freshUserId, CustomerName(s), CustomerEmail(s), passwordHash, 0, s.customer))
  }

  /** The first transaction recorded for a session. */
  function TxnBySession(txns: seq<TxnRow>, sessionId: string): (r: Option<TxnRow>)
    ensures r.Some? ==> r.value in txns && r.value.stripeSessionId == Some(sessionId)
    ensures r.None? <==> forall k :: 0 <= k < |txns| ==> txns[k].stripeSessionId != Some(sessionId)
  {
    if |txns| == 0 then None
    else if txns[0].stripeSessionId == Some(sessionId) then Some(txns[0])
    else TxnBySession(txns[1..], sessionId)
  }

  /** The resolved account has no customer id yet and the session names one. */
  predicate NeedsCustomer(row: UserRow, s: Session) {
    !HasCustomer(row) && s.customer.Some?
  }

  /** The user rows after the account step of activation: the new row is
      appended, or the found account gets the session's customer id when it
      has none. */
  function ActivationUsers(users: seq<UserRow>, res: Resolution, s: Session): seq<UserRow> {
    if res.Created? then users + [res.row]
    else if NeedsCustomer(res.row, s) then SetCustomer(users, res.row.id, s.customer.value)
    else users
  }

  /** The account step keeps the resolved account findable by its id. */
  lemma ActivationUsersFinds(users: seq<UserRow>, res: Resolution, s: Session)
    requires res.Created? ==> UserById(users, res.row.id).None?
    requires !res.Created? ==> res.row in users
    ensures var f := UserById(ActivationUsers(users, res, s), res.row.id);
      && f.Some?
      && (res.Created? ==> f.value == res.row)
      && (!res.Created? ==>
            var prev := UserById(users, res.row.id).value;
            f.value == if NeedsCustomer(res.row, s) then prev.(stripeCustomerId := s.customer) else prev)
  {
    if res.Created? {
      UserByIdAppend(users, res.row);
    } else if NeedsCustomer(res.row, s) {
      SetCustomerFinds(users, res.row.id, s.customer.value);
    }
  }

  /** What activation does to the resolved account, `balance` being the
      balance it reports: a new row holding exactly the amount is appended
      after the old rows; or the existing row's balance rises by the amount,
      it gets the session's customer id when it has none, its other columns
      are kept, and every other user row stays as it was. */
  predicate AccountCredited(users: seq<UserRow>, users': seq<UserRow>, res: Resolution, s: Session, balance: int) {
    var found := UserById(users', res.row.id);
    && found.Some? && balance == found.value.balanceCents
    && (res.Created? ==>
          && |users'| == |users| + 1 && users'[..|users|] == users
          && found.value == res.row.(balanceCents := s.amountCents))
    && (!res.Created? ==>
          && UserById(users, res.row.id).Some?
          && |users'| == |users|
          && (var prev := UserById(users, res.row.id).value;
              found.value == prev.(balanceCents := prev.balanceCents + s.amountCents,
                                   stripeCustomerId := if NeedsCustomer(res.row, s) then s.customer else prev.stripeCustomerId))
          && forall k :: 0 <= k < |users| && users[k].id != res.row.id ==> users'[k] == users[k])
  }

  /** Crediting a freshly appended row leaves the old rows alone. */
  lemma CreditNewRow(users: seq<UserRow>, row: UserRow, amount: int)
    requires UserById(users, row.id).None?
    ensures var r := Credit(users + [row], row.id, amount);
      && |r| == |users| + 1 && r[..|users|] == users
      && UserById(r, row.id) == Some(row.(balanceCents := row.balanceCents + amount))
  {
    var all := users + [row];
    UserByIdAppend(users, row);
    CreditMovesBalance(all, row.id, amount);
    var r := Credit(all, row.id, amount);
    forall k | 0 <= k < |users| ensures r[..|users|][k] == users[k] {
      assert all[k] == users[k];
      assert all[k].id != row.id;
    }
    assert r[..|users|] == users;
    assert UserById(all, row.id) == Some(row);
    var g := UserById(r, row.id);
    assert g.Some? && g.value == row.(balanceCents := row.balanceCents + amount);
  }

  /** The account step and the credit on an existing row. */
  lemma CreditExistingRow(users: seq<UserRow>, res: Resolution, s: Session)
    requires !res.Created? && res.row in users
    ensures var r := Credit(ActivationUsers(users, res, s), res.row.id, s.amountCents);
      AccountCredited(users, r, res, s, UserById(r, res.row.id).value.balanceCents)
  {
    var mid := ActivationUsers(users, res, s);
    ActivationUsersFinds(users, res, s);
    CreditMovesBalance(mid, res.row.id, s.amountCents);
    var r := Credit(mid, res.row.id, s.amountCents);
    forall k | 0 <= k < |users| && users[k].id != res.row.id ensures r[k] == users[k] {
      assert mid[k] == users[k];
    }
  }

  /** The user rows after activation's account step and credit. */
  function CreditAccount(users: seq<UserRow>, res: Resolution, s: Session): (r: seq<UserRow>)
    requires res.Created? ==> UserById(users, res.row.id).None? && res.row.balanceCents == 0
    requires !res.Created? ==> res.row in users
    ensures UserById(r, res.row.id).Some?
    ensures AccountCredited(users, r, res, s, UserById(r, res.row.id).value.balanceCents)
  {
    if res.Created? then
      CreditNewRow(users, res.row, s.amountCents);
      Credit(users + [res.row], res.row.id, s.amountCents)
    else
      CreditExistingRow(users, res, s);
      Credit(ActivationUsers(users, res, s), res.row.id, s.amountCents)
  }

  /** `POST /activate-verify`. `freshUserId`, `passwordHash`, `txnId` and
      `botIds` stand for the random values the handler generates. */
  function ActivateVerify(t: Tables, configured: bool, sessionId: string, session: Option<Session>,
                          drafts: seq<Draft>, freshUserId: string, passwordHash: string,
                          txnId: string, botIds: seq<string>): (r: (Tables, Response))
    requires |botIds| == |drafts|
    ensures !r.1.Activated? ==> r.0 == t
    // the refusals, in the handler's order
    ensures !configured ==> r.1 == NotConfigured
    ensures configured && sessionId == "" ==> r.1 == MissingSessionId
    ensures configured && sessionId != "" && session.None? ==> r.1 == ServerError
    ensures configured && sessionId != "" && session.Some? && !session.value.paid ==> r.1 == PaymentNotCompleted
    ensures configured && sessionId != "" && session.Some? && session.value.paid && session.value.amountCents <= 0 ==>
      r.1 == InvalidAmount
    ensures (&& configured && sessionId != "" && session.Some? && session.value.paid
             && session.value.amountCents > 0 && !HasSessionTxn(t, sessionId)
             && CustomerEmail(session.value) == "") ==> r.1 == NoEmail
    // a recorded session reports the account its transaction belongs to
    ensures (&& configured && sessionId != "" && session.Some? && session.value.paid
             && session.value.amountCents > 0 && HasSessionTxn(t, sessionId)) ==>
      var owner := UserById(t.users, TxnBySession(t.txns, sessionId).value.userId);
      && (owner.Some? ==> r.1 == AlreadyActivated(owner.value.id, owner.value.balanceCents))
      && (owner.None? ==> r.1 == ServerError)
    // a paid, positive, unrecorded session with an email activates, unless
    // the new account's id is taken (the insert's primary key fails)
    ensures (&& configured && sessionId != "" && session.Some? && session.value.paid
             && session.value.amountCents > 0 && !HasSessionTxn(t, sessionId)
             && CustomerEmail(session.value) != "") ==>
      var res := ResolveUser(t, session.value, freshUserId, passwordHash);
      && (res.Created? && UserById(t.users, freshUserId).Some? ==> r == (t, ServerError))
      && (!(res.Created? && UserById(t.users, freshUserId).Some?) ==> r.1.Activated?)
    ensures (&& configured && sessionId != "" && session.Some? && session.value.paid
             && session.value.amountCents > 0 && HasSessionTxn(t, sessionId)) ==> r.0 == t && !r.1.Activated?
    ensures r.1.Activated? ==>
      && session.Some? && session.value.paid && session.value.amountCents > 0
      && !HasSessionTxn(t, sessionId) && CustomerEmail(session.value) != ""
      && r.1.botsMigrated == |drafts|
      && r.1.userId == ResolveUser(t, session.value, freshUserId, passwordHash).row.id
      && r.0.txns == t.txns + [TxnRow(txnId, r.1.userId, "topup", session.value.amountCents, Some(sessionId))]
      && r.0.bots == MigrateDrafts(t.bots, drafts, botIds, r.1.userId)
      && r.0.claims == t.claims
      && r.0.claimTasks == t.claimTasks
    ensures r.1.Activated? ==>
      AccountCredited(t.users, r.0.users, ResolveUser(t, session.value, freshUserId, passwordHash),
                      session.value, r.1.balance)
  {
    if !configured then (t, NotConfigured)
    else if sessionId == "" then (t, MissingSessionId)
    else
      match session
      case None => (t, ServerError)
      case Some(s) =>
        if !s.paid then (t, PaymentNotCompleted)
        else if s.amountCents <= 0 then (t, InvalidAmount)
        else if HasSessionTxn(t, sessionId) then
          var txn := TxnBySession(t.txns, sessionId).value;
          match UserById(t.users, txn.userId)
          case None => (t, ServerError)
          case Some(row) => (t, AlreadyActivated(row.id, row.balanceCents))
        else if CustomerEmail(s) == "" then (t, NoEmail)
        else
          var res := ResolveUser(t, s, freshUserId, passwordHash);
          if res.Created? && UserById(t.users, freshUserId).Some? then (t, ServerError)
          else
            var uid := res.row.id;
            var users := CreditAccount(t.users, res, s);
            var credited := CreditSession(t.(users := ActivationUsers(t.users, res, s)), uid, s.amountCents, sessionId, txnId);
            var t' := credited.(bots := MigrateDrafts(t.bots, drafts, botIds, uid));
            assert t'.users == users;
            (t', Activated(uid, UserById(users, uid).value.balanceCents, |drafts|))
  }

  /** Activation credits the account the metadata id names when it exists,
      and otherwise the account holding the payment's email: its balance
      rises by the paid amount and the reply reports the new balance. */
  lemma ActivationCreditsResolvedAccount(t: Tables, s: Session, drafts: seq<Draft>, freshUserId: string,
                                         hash: string, txnId: string, ids: seq<string>)
    requires |ids| == |drafts|
    requires s.paid && s.amountCents > 0 && !HasSessionTxn(t, s.id) && CustomerEmail(s) != "" && s.id != ""
    requires (s.metadataUserId != "" && UserById(t.users, s.metadataUserId).Some?)
             || UserByEmail(t.users, CustomerEmail(s)).Some?
    ensures var r := ActivateVerify(t, true, s.id, Some(s), drafts, freshUserId, hash, txnId, ids);
      var id := if s.metadataUserId != "" && UserById(t.users, s.metadataUserId).Some? then s.metadataUserId
                else UserByEmail(t.users, CustomerEmail(s)).value.id;
      && r.1.Activated? && r.1.userId == id
      && UserById(t.users, id).Some? && UserById(r.0.users, id).Some?
      && r.1.balance == UserById(t.users, id).value.balanceCents + s.amountCents
  {
    var res := ResolveUser(t, s, freshUserId, hash);
    assert !res.Created?;
    var r := ActivateVerify(t, true, s.id, Some(s), drafts, freshUserId, hash, txnId, ids);
    assert AccountCredited(t.users, r.0.users, res, s, r.1.balance);
  }

  /** Activation credits a session once: a repeat answers with the account
      it activated and changes nothing. */
  lemma ActivateVerifyIdempotent(t: Tables, sessionId: string, s: Session, drafts: seq<Draft>,
                                 uid: string, hash: string, txn1: string, txn2: string, ids: seq<string>)
    requires |ids| == |drafts|
    ensures var r := ActivateVerify(t, true, sessionId, Some(s), drafts, uid, hash, txn1, ids);
      r.1.Activated? ==>
        && ActivateVerify(r.0, true, sessionId, Some(s), drafts, uid, hash, txn2, ids).0 == r.0
        && !ActivateVerify(r.0, true, sessionId, Some(s), drafts, uid, hash, txn2, ids).1.Activated?
  {
    var r := ActivateVerify(t, true, sessionId, Some(s), drafts, uid, hash, txn1, ids);
    if r.1.Activated? {
      var t1 := r.0;
      assert t1.txns[|t1.txns| - 1].stripeSessionId == Some(sessionId);
      assert HasSessionTxn(t1, sessionId);
    }
  }

  /** A draft list of only blank names inserts nothing, yet still removes the
      user's default bot. */
  lemma BlankDraftsStillDeleteDefault(bots: seq<BotRow>, drafts: seq<Draft>, ids: seq<string>, userId: string)
    requires |ids| == |drafts| && |drafts| > 0
    requires NoneMigratable(drafts)
    ensures forall b :: b in MigrateDrafts(bots, drafts, ids, userId) <==>
      b in bots && !(b.userId == userId && LooksLikeDefaultName(b.name))
  {
    DraftRowsNoneCount(drafts, ids, userId);
    assert bots + DraftRows(drafts, ids, userId) == bots;
  }

  /** As written, the clean-up also removes a migrated draft whose name ends
      in "'s Bot": such a draft does not survive activation. */
  lemma DefaultNamedDraftIsRemoved(bots: seq<BotRow>, d: Draft, id: string, userId: string)
    requires Migratable(d) && LooksLikeDefaultName(Trim(d.name.value))
    ensures DraftRow(d, id, userId) !in MigrateDrafts(bots, [d], [id], userId)
  {
  }

  /** Signup's default name "<name>'s Bot" is one the clean-up removes. */
  lemma SignupBotNameLooksDefault(name: string)
    ensures LooksLikeDefaultName(name + "'s Bot")
  {
    var s := name + "'s Bot";
    assert s[|s| - 6..] == "'s Bot";
  }
}

=== FILE: test_chat.dfy ===
/**
  The onboarding test chat: a scripted responder that picks a reply by
  keyword from the lower-cased message and the draft's settings, and a
  small chat whose send is ignored while a reply is pending. The random
  choice among the fallback replies is a parameter.
*/
module TestChat {
  import opened Text
  import opened Onboarding

  /** `data.botName || 'Bot'`. */
  function BotName(d: OnboardingData): (r: string)
    ensures r != "" && (d.botName != "" ==> r == d.botName)
  {
    if d.botName != "" then d.botName else "Bot"
  }

  function Greeting(name: string): string {
    "Hey there! I'm " + name + ". I'm all set up and ready to help. What can I do for you?"
  }

  const GenericHelp: string :=
    "I can help with all sorts of tasks \U{2014} answering questions, managing your day, and more. What do you need?"

  /** The phrase for a selected integration, in the order they are listed;
      `sheets` and the unavailable ones have none. */
  const SkillPhrases: seq<(string, string)> := [
    ("gmail", "manage your emails"),
    ("calendar", "check your calendar"),
    ("github", "work with GitHub repos"),
    ("browser", "browse the web"),
    ("obsidian", "search your notes")
  ]

  /** The phrases for the selected integrations, in `SkillPhrases` order. */
  function IntegrationSkills(phrases: seq<(string, string)>, selected: seq<string>): (r: seq<string>)
    ensures |r| <= |phrases|
    ensures forall p :: p in r ==> exists k :: 0 <= k < |phrases| && phrases[k].1 == p && phrases[k].0 in selected
    ensures (forall k :: 0 <= k < |phrases| ==> phrases[k].0 !in selected) <==> r == []
    decreases |phrases|
  {
    if |phrases| == 0 then []
    else
      var rest := IntegrationSkills(phrases[1..], selected);
      if phrases[0].0 in selected then [phrases[0].1] + rest else rest
  }

  /** One entry contributes its phrase exactly when it is selected. */
  lemma IntegrationSkillsSingle(e: (string, string), selected: seq<string>)
    ensures IntegrationSkills([e], selected) == if e.0 in selected then [e.1] else []
  {
    assert [e][1..] == [];
  }

  /** The phrases of two tables are those of the first followed by those of
      the second; with `IntegrationSkillsSingle` the result keeps the
      table's order. */
  lemma {:induction false} IntegrationSkillsAppend(a: seq<(string, string)>, b: seq<(string, string)>, selected: seq<string>)
    ensures IntegrationSkills(a + b, selected) == IntegrationSkills(a, selected) + IntegrationSkills(b, selected)
    decreases |a|
  {
    if |a| == 0 {
      assert a + b == b;
    } else {
      var ab := a + b;
      assert ab[0] == a[0];
      assert ab[1..] == a[1..] + b;
      IntegrationSkillsAppend(a[1..], b, selected);
      var head := if a[0].0 in selected then [a[0].1] else [];
      assert IntegrationSkills(ab, selected) == head + IntegrationSkills(ab[1..], selected);
      assert IntegrationSkills(a, selected) == head + IntegrationSkills(a[1..], selected);
    }
  }

  /** Every selected integration's phrase is in the list. */
  lemma IntegrationSkillsIncludesSelected(phrases: seq<(string, string)>, selected: seq<string>, k: int)
    requires 0 <= k < |phrases| && phrases[k].0 in selected
    ensures phrases[k].1 in IntegrationSkills(phrases, selected)
  {
    var before, after := phrases[..k], phrases[k + 1..];
    assert phrases == before + ([phrases[k]] + after);
    IntegrationSkillsAppend([phrases[k]], after, selected);
    IntegrationSkillsAppend(before, [phrases[k]] + after, selected);
    IntegrationSkillsSingle(phrases[k], selected);
    var r := IntegrationSkills(phrases, selected);
    assert r == IntegrationSkills(before, selected) + ([phrases[k].1] + IntegrationSkills(after, selected));
    assert r[|IntegrationSkills(before, selected)|] == phrases[k].1;
  }

  /** The skills list: the channel first, then the integrations. */
  function Skills(d: OnboardingData): (r: seq<string>)
    ensures r == [] <==> d.channel == "" && forall k :: 0 <= k < |SkillPhrases| ==> SkillPhrases[k].0 !in d.integrations
    ensures d.channel != "" ==> r[0] == "chat on " + d.channel && r[1..] == IntegrationSkills(SkillPhrases, d.integrations)
    ensures d.channel == "" ==> r == IntegrationSkills(SkillPhrases, d.integrations)
    ensures forall k :: 0 <= k < |SkillPhrases| && SkillPhrases[k].0 in d.integrations ==> SkillPhrases[k].1 in r
  {
    var phrases := IntegrationSkills(SkillPhrases, d.integrations);
    assert forall k :: 0 <= k < |SkillPhrases| && SkillPhrases[k].0 in d.integrations ==> SkillPhrases[k].1 in phrases by {
      forall k | 0 <= k < |SkillPhrases| && SkillPhrases[k].0 in d.integrations ensures SkillPhrases[k].1 in phrases {
        IntegrationSkillsIncludesSelected(SkillPhrases, d.integrations, k);
      }
    }
    (if d.channel != "" then ["chat on " + d.channel] else []) + phrases
  }

  function ModelLabel(model: string): string {
    if model == "anthropic" then "Claude" else if model == "openai" then "GPT" else "a local model"
  }

  function Identity(name: string, d: OnboardingData): string {
    "I'm " + name + ", your " + d.persona + " AI assistant powered by " + ModelLabel(d.model) + ". Nice to meet you!"
  }

  /** The four replies for anything else; `pick` chooses one. */
  function Fallback(name: string, pick: nat): string
    requires pick < 4
  {
    Fallbacks(name)[pick]
  }

  function Fallbacks(name: string): (r: seq<string>)
    ensures |r| == 4
  {
    [ "Got it! I'll work on that. As " + name + ", I'm here to help with anything you need.",
      "Great question! Let me think about that... I'd be happy to help you figure this out.",
      "Sure thing! That's exactly the kind of thing I'm set up for. Want me to go deeper on this?",
      "I'm on it. Once I'm fully live, I'll be able to do this 24/7 without you even asking." ]
  }

  predicate AsksGreeting(lower: string) {
    Contains(lower, "hello") || Contains(lower, "hi") || Contains(lower, "hey")
  }

  predicate AsksHelp(lower: string) {
    Contains(lower, "what can you do") || Contains(lower, "help")
  }

  predicate AsksIdentity(lower: string) {
    Contains(lower, "who are you") || Contains(lower, "your name")
  }

  /** Which reply a message gets; the first matching group wins. */
  datatype Topic = Greet | HelpTopic | WhoAmI | Other

  function TopicOf(msg: string): (t: Topic)
    ensures t == Greet <==> AsksGreeting(ToLower(msg))
    ensures t == HelpTopic <==> !AsksGreeting(ToLower(msg)) && AsksHelp(ToLower(msg))
    ensures t == WhoAmI <==> !AsksGreeting(ToLower(msg)) && !AsksHelp(ToLower(msg)) && AsksIdentity(ToLower(msg))
  {
    var lower := ToLower(msg);
    if AsksGreeting(lower) then Greet
    else if AsksHelp(lower) then HelpTopic
    else if AsksIdentity(lower) then WhoAmI
    else Other
  }

  /** The help reply: the skills, or the generic line when there are none. */
  function HelpReply(d: OnboardingData): string {
    var skills := Skills(d);
    if |skills| > 0 then "I can " + Join(skills, ", ") + ", and much more. Just ask me anything!"
    else GenericHelp
  }

  /** `generateBotResponse(userMsg, data)`; `pick` is
      `Math.floor(Math.random() * 4)`. */
  function Respond(msg: string, d: OnboardingData, pick: nat): (r: string)
    requires pick < 4
    ensures TopicOf(msg) == Greet ==> r == Greeting(BotName(d))
    ensures TopicOf(msg) == HelpTopic ==> r == HelpReply(d)
    ensures TopicOf(msg) == WhoAmI ==> r == Identity(BotName(d), d)
    ensures TopicOf(msg) == Other ==> r == Fallback(BotName(d), pick)
  {
    var name := BotName(d);
    match TopicOf(msg)
    case Greet => Greeting(name)
    case HelpTopic => HelpReply(d)
    case WhoAmI => Identity(name, d)
    case Other => Fallback(name, pick)
  }

  /** Every part of a join appears in it. */
  lemma {:induction false} JoinContainsParts(parts: seq<string>, sep: string, k: nat)
    requires k < |parts|
    ensures Contains(Join(parts, sep), parts[k])
    decreases |parts|
  {
    if |parts| == 1 {
      ContainsSelf(parts[0]);
    } else if k == 0 {
      ContainsSelf(parts[0]);
      ContainsInContext("", parts[0], sep + Join(parts[1..], sep), parts[0]);
      assert "" + parts[0] + (sep + Join(parts[1..], sep)) == Join(parts, sep);
    } else {
      JoinContainsParts(parts[1..], sep, k - 1);
      ContainsInContext(parts[0] + sep, Join(parts[1..], sep), "", parts[k]);
      assert parts[0] + sep + Join(parts[1..], sep) + "" == Join(parts, sep);
    }
  }

  /** A help reply names every skill the draft has. */
  lemma HelpReplyListsSkills(msg: string, d: OnboardingData, pick: nat, k: nat)
    requires pick < 4
    requires TopicOf(msg) == HelpTopic
    requires k < |Skills(d)|
    ensures Contains(Respond(msg, d, pick), Skills(d)[k])
  {
    var j := Join(Skills(d), ", ");
    JoinContainsParts(Skills(d), ", ", k);
    ContainsInContext("I can ", j, ", and much more. Just ask me anything!", Skills(d)[k]);
  }

  /** The greeting names the bot. */
  lemma GreetingNamesBot(msg: string, d: OnboardingData, pick: nat)
    requires pick < 4
    requires TopicOf(msg) == Greet
    ensures Contains(Respond(msg, d, pick), BotName(d))
  {
    ContainsSelf(BotName(d));
    ContainsInContext("Hey there! I'm ", BotName(d),
      ". I'm all set up and ready to help. What can I do for you?", BotName(d));
  }

  /** As written, "hi" is matched anywhere in the message, so a help request
      containing "this" gets the greeting. */
  lemma HelpWithThisGreets(d: OnboardingData, pick: nat)
    requires pick < 4
    ensures Respond("help with this", d, pick) == Greeting(BotName(d))
  {
    var lower := ToLower("help with this");
    assert lower == "help with this";
    assert OccursAt(lower, "hi", 11);
    assert TopicOf("help with this") == Greet;
  }

  /** The "Hello!" suggestion chip gets the greeting. */
  lemma HelloChipGreets(d: OnboardingData, pick: nat)
    requires pick < 4
    ensures Respond("Hello!", d, pick) == Greeting(BotName(d))
  {
    assert ToLower("Hello!") == "hello!";
    assert OccursAt("hello!", "hello", 0);
  }

  /** The speaker of a chat line. */
  datatype Role = User | Bot

  datatype Line = Line(role: Role, text: string)

  datatype TestChatState = TestChatState(messages: seq<Line>, typing: bool)

  /** The opening line: `data.botName || 'your bot'`. */
  function Start(d: OnboardingData): (st: TestChatState)
    ensures |st.messages| == 1 && st.messages[0].role == Bot && !st.typing
  {
    var name := if d.botName != "" then d.botName else "your bot";
    TestChatState([Line(Bot, "Hi! I'm " + name + ". Try talking to me \U{2014} this is a preview of how I'll respond based on your setup.")], false)
  }

  /** `sendMessage(text)` up to the timer: ignored when blank or while a
      reply is pending, otherwise the trimmed text is shown and typing starts. */
  function Send(st: TestChatState, text: string): (r: TestChatState)
    ensures IsBlank(text) || st.typing ==> r == st
    ensures !IsBlank(text) && !st.typing ==>
      r.messages == st.messages + [Line(User, Trim(text))] && r.typing
  {
    if IsBlank(text) || st.typing then st
    else TestChatState(st.messages + [Line(User, Trim(text))], true)
  }

  /** The timer firing: the reply to the text as typed, untrimmed. */
  function Reply(st: TestChatState, text: string, d: OnboardingData, pick: nat): (r: TestChatState)
    requires pick < 4
    ensures r.messages == st.messages + [Line(Bot, Respond(text, d, pick))] && !r.typing
  {
    TestChatState(st.messages + [Line(Bot, Respond(text, d, pick))], false)
  }

  /** While a reply is pending, a second message is dropped, and once the
      reply lands the chat accepts messages again. */
  lemma OneReplyAtATime(st: TestChatState, first: string, second: string, d: OnboardingData, pick: nat)
    requires pick < 4
    requires !st.typing && !IsBlank(first)
    ensures Send(Send(st, first), second) == Send(st, first)
    ensures var after := Reply(Send(st, first), first, d, pick);
      && |after.messages| == |st.messages| + 2
      && (!IsBlank(second) ==> Send(after, second).typing)
  {
  }
}

=== FILE: text.dfy ===
/**
  The handful of JavaScript string operations the application leans on:
  `String.prototype.trim`, `includes`, `toLowerCase`, `Array.prototype.join`
  and the decimal rendering of a number inside a template literal.
  Strings are sequences of Unicode scalar values.
*/
module Text {

  /** The code points JavaScript's `trim` removes: WhiteSpace (including
      every space separator) and LineTerminator. */
  predicate IsSpace(c: char) {
    || c == '\t' || c == '\n' || c == '\U{000B}' || c == '\U{000C}' || c == '\r'
    || c == ' ' || c == '\U{00A0}' || c == '\U{1680}'
    || ('\U{2000}' <= c <= '\U{200A}')
    || c == '\U{2028}' || c == '\U{2029}' || c == '\U{202F}' || c == '\U{205F}'
    || c == '\U{3000}' || c == '\U{FEFF}'
  }

  predicate AllSpace(s: string) {
    forall k :: 0 <= k < |s| ==> IsSpace(s[k])
  }

  /** `s.trimStart()`: the suffix of `s` left after its leading white space. */
  function TrimStart(s: string): (r: string)
    ensures |r| <= |s| && r == s[|s| - |r|..]
    ensures forall k :: 0 <= k < |s| - |r| ==> IsSpace(s[k])
    ensures |r| > 0 ==> !IsSpace(r[0])
  {
    if |s| > 0 && IsSpace(s[0]) then TrimStart(s[1..]) else s
  }

  /** `s.trimEnd()`: the prefix of `s` left before its trailing white space. */
  function TrimEnd(s: string): (r: string)
    ensures |r| <= |s| && r == s[..|r|]
    ensures forall k :: |r| <= k < |s| ==> IsSpace(s[k])
    ensures |r| > 0 ==> !IsSpace(r[|r| - 1])
  {
    if |s| > 0 && IsSpace(s[|s| - 1]) then TrimEnd(s[..|s| - 1]) else s
  }

  /** `r` is what is left of `s` once its first `i` characters and
      everything after `r` are removed, and all of that is white space. */
  predicate StripsTo(s: string, i: int, r: string) {
    && 0 <= i <= |s| - |r|
    && r == s[i..i + |r|]
    && AllSpace(s[..i])
    && AllSpace(s[i + |r|..])
  }

  /** `s.trim()`: the slice of `s` between its leading and its trailing
      white space. */
  function Trim(s: string): (r: string)
    ensures |r| <= |s|
    ensures |r| > 0 ==> !IsSpace(r[0]) && !IsSpace(r[|r| - 1])
    ensures r == "" <==> AllSpace(s)
  {
    var t := TrimStart(s);
    var r := TrimEnd(t);
    r
  }

  /** `Trim(s)` is `s` with its leading and trailing white space removed. */
  lemma TrimStrips(s: string)
    ensures exists i :: StripsTo(s, i, Trim(s))
  {
    var t := TrimStart(s);
    TrimSlice(s, |s| - |t|, t, TrimEnd(t));
    assert StripsTo(s, |s| - |t|, Trim(s));
  }

  /** A prefix of white space, then `r`, then white space, is stripped to `r`. */
  lemma TrimSlice(s: string, i: nat, t: string, r: string)
    requires i <= |s| && t == s[i..] && |r| <= |t| && r == t[..|r|]
    requires forall k :: 0 <= k < i ==> IsSpace(s[k])
    requires forall k :: |r| <= k < |t| ==> IsSpace(t[k])
    ensures StripsTo(s, i, r)
  {
    assert r == s[i..i + |r|];
    var pre := s[..i];
    forall k | 0 <= k < |pre| ensures IsSpace(pre[k]) {
      assert pre[k] == s[k];
    }
    var post := s[i + |r|..];
    forall k | 0 <= k < |post| ensures IsSpace(post[k]) {
      assert post[k] == t[|r| + k];
    }
  }

  /** JavaScript's `!s.trim()`: the string is empty once white space is gone. */
  predicate IsBlank(s: string) {
    Trim(s) == ""
  }

  /** Trimming is idempotent: a trimmed string has nothing left to trim. */
  lemma TrimIdempotent(s: string)
    ensures Trim(Trim(s)) == Trim(s)
  {
    var t := Trim(s);
    assert TrimStart(t) == t;
    assert TrimEnd(t) == t;
  }

  /** `sub` occurs in `s` starting at index `i`. */
  predicate OccursAt(s: string, sub: string, i: int) {
    0 <= i <= |s| - |sub| && s[i..i + |sub|] == sub
  }

  /** `s.includes(sub)`. */
  predicate Contains(s: string, sub: string) {
    exists i | 0 <= i <= |s| - |sub| :: OccursAt(s, sub, i)
  }

  /** Witness form of `Contains`, so a caller can name the occurrence. */
  lemma ContainsAt(s: string, sub: string, i: int)
    requires OccursAt(s, sub, i)
    ensures Contains(s, sub)
  {
  }

  /** A string contains itself, and every string contains the empty string. */
  lemma ContainsSelf(s: string)
    ensures Contains(s, s) && Contains(s, "")
  {
    assert OccursAt(s, s, 0);
    assert OccursAt(s, "", 0);
  }

  /** Occurrences survive text added on either side. */
  lemma ContainsInContext(a: string, s: string, b: string, sub: string)
    requires Contains(s, sub)
    ensures Contains(a + s + b, sub)
  {
    var i :| 0 <= i <= |s| - |sub| && OccursAt(s, sub, i);
    assert 0 <= i <= |s| - |sub| && s[i..i + |sub|] == sub;
    var w := a + s + b;
    assert w[|a| + i..|a| + i + |sub|] == s[i..i + |sub|];
    ContainsAt(w, sub, |a| + i);
  }

  /** `toLowerCase` on one character, restricted to ASCII letters. */
  function LowerChar(c: char): char {
    if 'A' <= c <= 'Z' then (c as int + 32) as char else c
  }

  /** `s.toLowerCase()` for ASCII letters; every other character is kept. */
  function ToLower(s: string): (r: string)
    ensures |r| == |s|
    ensures forall k :: 0 <= k < |s| ==> r[k] == LowerChar(s[k])
  {
    seq(|s|, k requires 0 <= k < |s| => LowerChar(s[k]))
  }

  /** `parts.join(sep)`. */
  function Join(parts: seq<string>, sep: string): string
    decreases |parts|
  {
    if |parts| == 0 then ""
    else if |parts| == 1 then parts[0]
    else parts[0] + sep + Join(parts[1..], sep)
  }

  predicate IsDigit(c: char) {
    '0' <= c <= '9'
  }

  function DigitChar(d: nat): char
    requires d < 10
  {
    ('0' as int + d) as char
  }

  function DigitValue(c: char): nat
    requires IsDigit(c)
  {
    c as int - '0' as int
  }

  /** The decimal rendering of a natural number, as `${n}` produces it. */
  function NatToString(n: nat): (r: string)
    ensures |r| > 0
    ensures forall k :: 0 <= k < |r| ==> IsDigit(r[k])
    ensures |r| > 1 ==> r[0] != '0'
    ensures n < 10 <==> |r| == 1
  {
    if n < 10 then [DigitChar(n)] else NatToString(n / 10) + [DigitChar(n % 10)]
  }

  /** Reads a run of decimal digits back as a number. */
  function ParseNat(s: string): nat
    requires forall k :: 0 <= k < |s| ==> IsDigit(s[k])
  {
    if |s| == 0 then 0 else 10 * ParseNat(s[..|s| - 1]) + DigitValue(s[|s| - 1])
  }

  /** Decimal rendering loses nothing: parsing it gives the number back. */
  lemma {:induction false} ParseNatToString(n: nat)
    ensures ParseNat(NatToString(n)) == n
  {
    var r := NatToString(n);
    if n >= 10 {
      assert r[..|r| - 1] == NatToString(n / 10);
      ParseNatToString(n / 10);
    }
  }

  /** Decimal rendering is injective, so distinct counts render differently. */
  lemma NatToStringInjective(m: nat, n: nat)
    requires NatToString(m) == NatToString(n)
    ensures m == n
  {
    ParseNatToString(m);
    ParseNatToString(n);
  }

  /** `${n}` for any integer: a minus sign before the magnitude when negative. */
  function IntToString(n: int): string {
    if n >= 0 then NatToString(n) else "-" + NatToString(-n)
  }
}

=== FILE: upgrade_prompt.dfy ===
/**
  The quota banners of the chat views: `MessageCounter`, the small line that
  appears when five or fewer free messages remain, and `UpgradePrompt`, the
  panel shown once none remain.
*/
module UpgradePrompt {
  import opened Text
  import MessageLimit

  /** What `MessageCounter` renders: nothing, or a line of text that is
      styled as urgent or not. */
  datatype CounterView = Hidden | Line(text: string, urgent: bool)

  const UsedUpText: string := "Daily free messages used"

  /** `MessageCounter({remaining})`. */
  function MessageCounter(remaining: int): CounterView {
    if remaining > 5 then Hidden
    else
      var text :=
        if remaining == 0 then UsedUpText
        else IntToString(remaining) + " free message" + (if remaining != 1 then "s" else "") + " left today";
      Line(text, remaining <= 2)
  }

  /** `UpgradePrompt` renders its panel only when no free message remains. */
  predicate UpgradePromptVisible(remaining: int) {
    !(remaining > 0)
  }

  /** The counter line is absent exactly when more than five messages remain,
      and urgent exactly when at most two remain. */
  lemma CounterVisibility(remaining: int)
    ensures MessageCounter(remaining).Hidden? <==> remaining > 5
    ensures MessageCounter(remaining).Line? ==> (MessageCounter(remaining).urgent <==> remaining <= 2)
  {
  }

  /** For one to five remaining messages the line names the count, with
      a plural "s" exactly when the count is not one. */
  lemma CounterText(remaining: int)
    requires 1 <= remaining <= 5
    ensures MessageCounter(remaining).text ==
      [DigitChar(remaining)] + " free message" + (if remaining != 1 then "s" else "") + " left today"
    ensures MessageCounter(remaining).text != UsedUpText
  {
  }

  /** Different remaining counts never produce the same counter line, so the
      line always tells the viewer the exact allowance left. */
  lemma CounterTextDistinguishes(a: int, b: int)
    requires 0 <= a <= 5 && 0 <= b <= 5 && a != b
    ensures MessageCounter(a).text != MessageCounter(b).text
  {
    if a != 0 && b != 0 {
      assert MessageCounter(a).text[0] == DigitChar(a);
      assert MessageCounter(b).text[0] == DigitChar(b);
    } else if a == 0 {
      assert MessageCounter(b).text[0] == DigitChar(b);
      assert UsedUpText[0] == 'D';
    } else {
      assert MessageCounter(a).text[0] == DigitChar(a);
      assert UsedUpText[0] == 'D';
    }
  }

  /** Tied to the quota record: the upgrade panel appears exactly when the
      widget is limited, and the counter line exactly once 15 messages of
      the day are used. */
  lemma BannersFollowQuota(d: MessageLimit.DayCount)
    ensures UpgradePromptVisible(MessageLimit.Remaining(d)) <==> MessageLimit.IsLimited(d)
    ensures UpgradePromptVisible(MessageLimit.Remaining(d)) <==> d.count >= MessageLimit.FreeDailyLimit
    ensures MessageCounter(MessageLimit.Remaining(d)).Line? <==> d.count >= 15
    ensures MessageCounter(MessageLimit.Remaining(d)).Line? && MessageCounter(MessageLimit.Remaining(d)).urgent <==> d.count >= 18
  {
  }
}

=== FILE: wrappers.dfy ===
/** Optional values, standing in for JavaScript's `null` / `undefined` and
    for SQL lookups that may find no row. */
module Wrappers {

  datatype Option<+T> = None | Some(value: T) {

    /** The value, or `default` when there is none (JavaScript's `?? default`). */
    function GetOr(default: T): T {
      match this
      case Some(v) => v
      case None => default
    }
  }
}
